=== FILE: README.md ===
# Hermes rate-limit tester — a Dafny model of its core

Hermes (`Hermes.py`) tests an HTTP endpoint's rate limiting. For a configured
number of seconds it launches one wave of `rps` requests per second. Each
request that completes is recorded in four ways:

- the request counter goes up;
- its latency goes into a running accumulator (count, total, minimum, maximum);
- its HTTP status, or `ERR` when there was none, is counted in a tally;
- one fixed-width line is put on the log queue.

The log window reads those lines back. It takes a progress count from the SEQ
column and a colour from the STAT column. At the end of a run the tool builds
a summary. The summary window shows success, 429 and other-failure figures
drawn from the tally. A run's configuration comes from a form or from a JSON
preset, and its header text is parsed line by line into a dictionary.

This project models that core in Dafny:

- `text.dfy` (`Text`) — the Python string operations the core relies on:
  `strip`, `splitlines`, `upper`, `int(str)`, `str(int)`, and the padding of
  format specifications.
- `headers.dfy` (`Headers`) — `parse_header_lines`. It has a specification
  function and a loop method proved equal to it.
- `latency.dfy` (`Latency`) — the `LatencyStats` class. A ghost history of
  samples makes its fields provably the count, sum, minimum and maximum.
- `tally.dfy` (`Tally`) — status keys, the `Counter` increment, and the
  summary window's breakdown.
- `logline.dfy` (`LogLine`) — the per-request log line and `HEADER_LINE`, and
  the reader in `_drain_queue` that slices and tags those lines.
- `config.dfy` (`Config`) — `RunConfig.from_fields`, `to_dict` and
  `from_dict`, plus the form validation of `collect_config`. The body's UTF-8
  encoding is proved against a decoder that undoes it.
- `summary.dfy` (`Summary`) — `RunSummary.to_dict`.
- `probe.dfy` (`Probe`) — `run_probe` as a class. `Process` records one
  finished task, `ProcessWave` is the inner loop of one wave, and `Run` is the
  wave loop with its pacing.

The network, the clock and the stop flag are inputs to `Run`. Each wave says:

- when the loop test happened and whether stop was set;
- how its tasks finished, in order;
- how long the wave took;
- whether stop was set when the sleep was decided.

The model follows the code in two places where one might expect otherwise:

- `RunConfig.from_fields` checks nothing beyond the header text. The positive
  rate, duration and timeout are checked only by the form (`collect_config`).
  A non-empty URL is checked by the form and by `run_headless`
  (Hermes.py:962-963), which tests the URL before stripping it. A preset
  loaded through `from_dict` is not checked at all, and
  `Config.PresetUnchecked` exhibits one.
- From the millionth request on, `{sent:6d}` is seven characters wide. The
  fixed slices of `_drain_queue` then misread the line, as
  `LogLine.SeqColumnOverflow` states.

## Model

| member | source | states |
|---|---|---|
| Latency.LatencyStats.constructor | Hermes.py:53-58 | A new accumulator has count 0, total 0 and no minimum or maximum, and it summarises the empty history. |
| Latency.LatencyStats.Add | Hermes.py:60-66 | Adding a sample raises the count by exactly one and the total by the sample. The first sample seeds both extremes; later ones replace an extreme only when strictly beyond it. The fields stay the count, sum, minimum and maximum of the samples so far. |
| Latency.LatencyStats.Mean | Hermes.py:68-71 | The mean is absent exactly when no sample was recorded. |
| Latency.LatencyStats.Bounds | Hermes.py:60-71 | For a non-empty accumulator, `count * min <= total <= count * max`, so the mean lies between the minimum and the maximum. |
| Latency.ExtremesBound | Hermes.py:63-66 | The recorded minimum is at most every sample and the maximum at least every sample. |
| Latency.ExtremesAreSamples | Hermes.py:63-66 | The recorded minimum and maximum are themselves samples. |
| Latency.SumAtLeast | Hermes.py:62-64 | The total of a non-empty run of samples is at least count times its minimum. |
| Latency.SumAtMost | Hermes.py:62-66 | The total of a non-empty run of samples is at most count times its maximum. |
| Latency.AverageBetween | Hermes.py:68-71 | A total between `count * lo` and `count * hi` averages to a value between `lo` and `hi`. |
| Summary.ToRecord | Hermes.py:82-98 | The record's latency entry is a bare zero count exactly when no latency was recorded. |
| Summary.RecordAverageBetween | Hermes.py:89-95 | In the record of a run with latencies, the count is the number of samples, the minimum and maximum are the samples' extremes, and the average is the samples' sum divided by their number, so it lies between them. |
| Summary.DisplayKeyedLossless | Hermes.py:86 | Keying the status counts by `str(key)` loses nothing. Every key's count is stored under its display, and every stored name reads back as a counted key. |
| Summary.DisplaysDistinct | Hermes.py:86 | No two status keys have the same display, so the string-keyed record cannot merge two counts. |
| Tally.KeyOf | Hermes.py:259-263 | A request is counted under `Err` exactly when it has no status, and under its status otherwise. |
| Tally.Display | Hermes.py:267 | A displayed key is non-empty and has no surrounding whitespace, and the display of a numeric key reads back as its code. |
| Tally.Increment | Hermes.py:264 | Counting a key adds it to the tally if absent and raises its count by one. Every other key keeps its count. |
| Tally.ParseDisplay | Hermes.py:267 | The displayed form of a status key reads back as that key. |
| Tally.DisplayInjective | Hermes.py:267 | Two keys with the same display are the same key. |
| Tally.IncrementTotal | Hermes.py:264 | Each `status_counts[key] += 1` adds exactly one to the sum of all counts. |
| Tally.TallyOfCounts | Hermes.py:264 | A tally built by incrementing holds exactly the keys seen, each with the number of times it occurred. |
| Tally.TallyOfTotal | Hermes.py:264 | The counts of a tally add up to the number of keys counted into it. |
| Tally.BreakdownWithinTotal | Hermes.py:771-780 | The success, 429 and other-failure figures together never exceed the tally's total. No status is counted under two of them. |
| Tally.BreakdownOf | Hermes.py:771-780 | The three figures of the summary window together never exceed the tally's total. |
| Tally.BreakdownCounts | Hermes.py:771-780 | The success figure is the number of 2xx responses, the rate-limited figure the number of 429s, and the other-failure figure the number of other statuses from 400 up plus transport errors. |
| Tally.TotalSplit | Hermes.py:771-780 | Splitting a tally by a test and its complement splits its total. |
| Tally.RestrictTally | Hermes.py:771-780 | Restricting a tally to the keys that pass a test is the tally of just those keys. |
| Headers.ParseHeaderLines | Hermes.py:161-175 | The loop that fills the dictionary line by line returns exactly `ParseHeaders`: the same dictionary, or the error of the first bad line. |
| Headers.ParseHeaders | Hermes.py:161-175 | Whitespace-only text parses to the empty dictionary. Every parsed name is non-empty, stripped and colon-free, and every value is stripped. |
| Headers.ParseLinesWellFormed | Hermes.py:163-174 | Filling a dictionary from well-formed header lines keeps every name non-empty, stripped and colon-free, and every value stripped. |
| Headers.ParseHeadersSpec | Hermes.py:161-175 | Parsing fails exactly when some line is bad. On success a name is a key exactly when some line defines it, and its value is the one given by the last such line. |
| Headers.ParseLinesFails | Hermes.py:163-173 | Parsing fails exactly when a bad line exists, and the error reported is that of the first bad line. |
| Headers.ParseLinesContents | Hermes.py:163-174 | On success every name maps to the value of its last header line. A name with no header line keeps what it had before. |
| Headers.ClassifyRawLine | Hermes.py:164-174 | A non-blank line fails for a missing colon exactly when it has no colon. It fails for an empty name exactly when the text before its first colon is whitespace. Otherwise its name and value are the stripped text before and after its first colon. |
| Headers.ClassifyLine | Hermes.py:164-174 | A line is skipped exactly when it is whitespace only. A rejected line carries the line itself in its error. An accepted line gives a non-empty, stripped, colon-free name and a stripped value. |
| Headers.ColonSplit | Hermes.py:167-169 | A line with a colon still has one after stripping, and its first colon is the stripped text's first colon, shifted by the leading whitespace. |
| Headers.RenderedLineRoundTrip | Hermes.py:169-174 | A header written as `Name: Value` reads back as the same pair, even when the value contains colons, since only the first colon splits. |
| Headers.IndexOfSpec | Hermes.py:169 | The index found for a character is its first occurrence, or the length when it does not occur. |
| Text.SplitJoin | Hermes.py:163 | Splitting the newline-joined text of break-free lines gives those lines back. |
| Text.SplitLines | Hermes.py:163 | No line that `splitlines` yields contains a line break. |
| Text.SplitLinesBlank | Hermes.py:163-166 | Whitespace-only text splits into whitespace-only lines. |
| Text.Trim | Hermes.py:164 | Stripped text has no leading or trailing whitespace and is no longer than the original. |
| Text.TrimEmptyIff | Hermes.py:164-165 | Stripping leaves nothing exactly when the text is whitespace only. |
| Text.ParseIntToString | Hermes.py:653 | `int(str(i)) == i` for every integer. |
| Text.ParseInt | Hermes.py:653 | `int(str)` on stripped text, which is how the core always applies it: it accepts only non-empty text, reads a negative number only after a minus sign, and reads every non-empty run of digits as a non-negative number. |
| Text.IntToString | Hermes.py:267 | `str(int)` is non-empty and has no surrounding whitespace. |
| Text.Upper | Hermes.py:152 | Upper-casing keeps the length, turns each lower-case letter into its own capital (32 code points lower), leaves no lower-case letter, and changes no other character. |
| Text.AlignRight | Hermes.py:270 | `{s:>w}` is `s` padded on the left with spaces to at least `w` characters. |
| Text.AlignLeft | Hermes.py:270 | `{s:w}` is `s` padded on the right with spaces to at least `w` characters. |
| Text.TrimAlignRight | Hermes.py:652 | Stripping a right-aligned field gives back the stripped text that was aligned. |
| Config.BodyOf | Hermes.py:125 | The body is absent exactly when the body text is empty. Otherwise it is one to four bytes per character and decodes back to the body text. |
| Config.Utf8 | Hermes.py:125 | `encode("utf-8")` yields one to four bytes per character. |
| Config.EncodeChar | Hermes.py:125 | A character takes one to four bytes, a single byte exactly for ASCII, and that byte is the character's code. |
| Config.DecodeEncodeChar | Hermes.py:125 | Each character's encoding starts with a lead byte announcing its length and decodes back to that character. |
| Config.DecodeUtf8 | Hermes.py:125 | Decoding the UTF-8 encoding of any text gives that text back. |
| Config.FromFields | Hermes.py:113-136 | Building a configuration fails exactly when the header text fails to parse, and with that error. No other field is checked. |
| Config.NormalizeMethod | Hermes.py:152 | The normalised method is never empty. It is "GET" for whitespace-only input, and otherwise the stripped input upper-cased. |
| Config.NormalizeMethodIdempotent | Hermes.py:152 | A normalised method is non-empty, stripped and upper-case, and normalising it again changes nothing. |
| Config.CollectConfig | Hermes.py:538-566 | The form is accepted exactly when all of these hold: the stripped URL is non-empty; the rate and duration parse as positive integers; the timeout parses as a positive number; the header text parses. Invalid fields give the input error, whatever the headers. Valid fields with a header error give that parser error. |
| Config.CollectedConfigNormalized | Hermes.py:538-566 | An accepted configuration has a stripped non-empty URL, a positive rate, duration and timeout, and a normalised method. Its rate and duration are the integers the stripped rate and duration texts parse to, and its timeout is the number the stripped timeout text parses to. Its headers are what its header text parses to, and it has a body exactly when the body text is non-empty. |
| Config.ToDict | Hermes.py:138-147 | A saved configuration has exactly the seven preset entries, each holding its field. |
| Config.FromDict | Hermes.py:150-158 | Loading fails with the missing-URL error exactly when there is no "url" entry. With a URL, the entries are converted in the source's order, and the first one refused names the failure: `rps`, then `duration_s` (by `int()`), then `timeout_s` (by `float()`). When all three convert, loading succeeds exactly when the header text parses, and a header error is reported as the parser's error. A loaded configuration has a stripped URL and a normalised method. Its rate, duration and timeout are what `int()`/`float()` make of the `rps`, `duration_s` and `timeout_s` entries, defaulting to 1, 1 and 10. Its headers and body are those of its texts. |
| Config.PyInt | Hermes.py:153-154 | `int()` on a loaded value: a string is stripped and parsed as a decimal integer, an integer is kept, and a float is truncated toward zero (the result is at most the value when it is non-negative, and at least the value when it is negative, within one). A bool becomes 0 or 1, and `None` is refused. |
| Config.PresetRoundTrip | Hermes.py:138-158 | Loading what `to_dict` wrote gives back the same configuration, for every configuration with a stripped URL, a normalised method, and the headers and body of its texts. |
| Config.LoadedPresetRoundTrip | Hermes.py:138-158 | A configuration loaded from any preset is saved and loaded back unchanged. |
| Config.CollectedConfigRoundTrip | Hermes.py:138-158 | A configuration accepted from the form survives being saved as a preset and loaded again. |
| Config.PresetDefaults | Hermes.py:150-158 | A preset with only a URL loads with: the stripped URL; GET; a rate and duration of 1; a 10-second timeout; no headers and no body. |
| Config.PresetUnchecked | Hermes.py:150-158 | A preset with a blank URL and a zero rate loads, because `from_dict` does not validate. |
| Config.Truncate | Hermes.py:153-154 | `int` of a float rounds toward zero. |
| LogLine.FormatLine | Hermes.py:270 | A request line is at least 50 characters long. |
| LogLine.Columns | Hermes.py:270 | A request line starts with its timestamp's first character. While each field fits its column, characters 25-30 hold the request number right-aligned and characters 33-37 the status display right-aligned. |
| LogLine.ProgressRoundTrip | Hermes.py:650-656 | For a timestamp starting with a digit, at most 23 characters and up to request 999999, the progress label reads back the request's number. |
| LogLine.TagRoundTrip | Hermes.py:657-678 | Under the same conditions, the log window colours a request line by its status key. |
| LogLine.ProgressOfColumn | Hermes.py:650-653 | A line starting with a digit whose SEQ column holds `n` right-aligned yields `n` for the progress label. |
| LogLine.ProgressCount | Hermes.py:650-656 | The progress label moves only for a message that starts with a digit and is at least 31 characters long. For such a message, the count is what `int()` makes of the stripped SEQ column, and none when that is not an integer. A column of digits gives a non-negative count. |
| LogLine.DrainTag | Hermes.py:657-678 | A message is tagged info exactly when it starts with "TIME " or is all dashes. Any other tag needs a message of at least 40 characters starting with a digit, and for such a message the STAT column (characters 33 to 37, stripped) decides. `ERR` is tagged err, an integer code gets the tag of its status class, and anything else gets no tag. |
| LogLine.KeyTag | Hermes.py:661-678 | A status key is coloured err exactly when it is `ERR` or a 400-599 status other than 429, ok exactly for 2xx, and warn exactly for 429. It is never coloured info. |
| LogLine.TagOfColumn | Hermes.py:661-678 | A line starting with a digit whose STAT column holds a key right-aligned gets that key's colour: `ERR` is red, and integers go by status range. |
| LogLine.StatusTag | Hermes.py:667-678 | 2xx is tagged ok, 429 warn, any other 400-599 err, and every other integer gets no tag. Each holds in both directions. |
| LogLine.HeaderLineLayout | Hermes.py:50 | The header line, shown as a label above the log (it never goes through the log queue), is 55 characters long, and its SEQ and STAT titles sit over the SEQ and STAT columns that the log window reads. Were it drained like a log message, it would be tagged info and would not move the progress label. |
| LogLine.FinalLine | Hermes.py:279 | The closing line is non-empty and does not start with a digit. |
| LogLine.FinalLinePlain | Hermes.py:279 | The closing line gets no colour and does not move the progress label. |
| LogLine.SeqColumnOverflow | Hermes.py:270 | From request 1000000 on, the SEQ column is read one digit short, so the label shows a tenth of the count. The STAT column is also read off by one, so a 200 response loses its colour. |
| Probe.Probe.constructor | Hermes.py:216-220 | A new probe has sent nothing, an empty tally, an empty accumulator and an empty log. |
| Probe.Probe.Process | Hermes.py:247-271 | A cancelled task changes nothing. Any other task adds one to `sent` and counts one status key, `Err` exactly when there is no status. It appends its latency to the accumulator when there is one, and logs one line carrying the new `sent`. The invariant holds throughout: the counter, tally, accumulator and log describe exactly the requests taken so far. |
| Probe.Probe.ProcessWave | Hermes.py:235-271 | Recording a wave's tasks adds the number of non-cancelled tasks to `sent`, appends their latencies in order, and appends their lines numbered on from the old `sent`. |
| Probe.Launched | Hermes.py:227-232 | A wave launches one task per element of `range(rps)`: `rps` tasks for a positive rate, none otherwise. |
| Probe.Probe.Run | Hermes.py:225-287 | The loop runs exactly the waves up to the first whose loop test fails, because stop was set or time was up. It takes `rps` tasks per wave run and counts at most `rps` requests per wave, exactly `rps` when none was cancelled. `rps` is any integer, as `--rps` is parsed with `int` and passed on unchecked (Hermes.py:958, 968, 1015). A rate of zero or below launches no task, since `range(rps)` is then empty. It records all their tasks, plans after each wave the pause that `SleepOf` gives, logs the closing line last, and returns the summary of the counter, tally and accumulator. |
| Probe.Probe.CountsAddUp | Hermes.py:255-264 | The tally's counts add up to `sent`. When every request reports a latency, so does the accumulator's count. |
| Probe.WavesRun | Hermes.py:225 | The waves run are a prefix of the waves given. Each of them passes the loop test, and the next one does not. |
| Probe.Launches | Hermes.py:225 | No wave is launched once stop is set, nor, on a clock that reads no earlier than the start, for a duration of zero or less. |
| Probe.NoWaveAfterStop | Hermes.py:225 | No wave is launched at or after a loop test that sees the stop flag or the end time. |
| Probe.SleepOf | Hermes.py:273-276 | The pause is between 0 and 1 second, and there is none once stop is set. A wave that ends early is padded to exactly one second. A slow wave gets no pause, and a later wave is not shortened to catch up. |
| Probe.StartsAfter | Hermes.py:225-276 | On a coherent clock, wave `i` starts no earlier than `i` seconds after the start. |
| Probe.AtMostDuration | Hermes.py:223-276 | On a coherent clock, a run of `duration_s` seconds launches at most `duration_s` waves. |
| Probe.PunctualClock | Hermes.py:223-276 | On a clock that starts at 0 and advances by each wave's duration and pause, with waves done within their second and no stop, wave `i` starts at exactly `i` seconds. |
| Probe.PunctualCoherent | Hermes.py:223-276 | Such a punctual clock is a coherent one. |
| Probe.IdealClock | Hermes.py:223-276 | On a punctual clock, exactly `duration_s` waves are launched. |
| Probe.PunctualRunSends | Hermes.py:223-264 | On a punctual clock with no task cancelled, a run of `duration_s` seconds at `rps` per second counts `rps * duration_s` requests. |
| Probe.SentPerWave | Hermes.py:227-232 | When every wave holds `rps` tasks, the waves hold `rps` tasks each and at most `rps` requests each are counted, exactly `rps` when no task is cancelled. |
| Probe.KeysUncancelled | Hermes.py:247-264 | Without cancellations every task is counted as a request. |
| Probe.OutcomeOf | Hermes.py:247-253 | A returned outcome is recorded as it is. An exception is recorded with no status, hence under `Err`, a latency of 0 and the exception's description as its error. |
| Probe.LineOf | Hermes.py:265-270 | A request line is at least 50 characters long. From it the log window reads back the request's number and its status key's colour, as long as the timestamp starts with a digit and fits 23 characters, the number fits six and the status display five. |
| Probe.LogReadBack | Hermes.py:265-270 | The log window's progress label reads `i + 1` from a run's `i`-th request line, and the line is coloured by its status key. This holds up to request 999999, for timestamps of at most 23 characters that start with a digit. |
| Probe.NumberedIndex | Hermes.py:255-270 | The `i`-th logged line is the line of the `i`-th non-cancelled task, numbered `i + 1`. |
| Probe.CountedKeys | Hermes.py:247-264 | The `i`-th tally key of a run is the key of its `i`-th non-cancelled task. |
| Probe.SamplesMatchKeys | Hermes.py:255-257 | When every counted request reports a latency, there are as many samples as counted requests. |
| Probe.TakeOne | Hermes.py:247-271 | Taking one more task adds nothing to a run's records if the task was cancelled. Otherwise it adds one key, its latency if it has one, and one line numbered after the earlier ones. |
| Probe.Records | Hermes.py:235-271 | A run's records after a second batch of tasks are the earlier records followed by the batch's, numbered on. |

## Left out

- `fetch` and everything from aiohttp (sessions, TLS, timeouts, how an exception becomes an outcome) is network I/O. A task's result arrives as an input (`Probe.Completion`), with an exception given by its description.
- asyncio task creation, `asyncio.wait` polling and real cancellation timing are left out. The stop flag (`threading.Event`) and the log queue (`queue.Queue`) are reduced to values: the order in which a wave's tasks finish, and whether each was cancelled, is an input. The queue becomes the probe's `log` sequence.
- `time.perf_counter` and `datetime` are inputs. Each wave carries the time of its loop test and its own duration, and the timestamp of a line is an opaque string. The ISO rendering of the start time is an input string too; only the appended `Z` is modelled.
- Floating point is modelled as `real`. NaN, infinities and rounding are not modelled. `round(..., 3)` in `to_dict` is left out, so the record keeps exact values.
- `:.2f` latency rendering, `repr` of a float, and Python's `float(str)` are parameters: `render`, `floatRepr` and `parseFloat`. `{total:.2f}` in the closing line is `render(totalS)`.
- `Text.ParseInt`: `int(str)` is modelled for ASCII digits with an optional sign after stripping. Underscores and non-ASCII digits are not accepted.
- `Text.Upper`: upper-casing is modelled for ASCII letters only.
- `LogLine.StartsWithDigit`: Python's `isdigit` also accepts non-ASCII digits (superscripts, other scripts). The model accepts only `0`-`9`, so a line starting with another digit character is not read back.
- Config.Value: preset entries are limited to JSON scalars (string, integer, number, boolean, null). A JSON array or object is not modelled. For such an entry `int()`/`float()` would raise `TypeError`, and `str()` would render the container's text.
- Python strings may hold lone surrogates, for which `encode("utf-8")` raises. A Dafny `char` is a Unicode scalar value, so `Config.Utf8` never meets one.
- The progress label's `{count:04d}회 전송` text is not modelled; `LogLine.ProgressCount` gives the number it shows.
- `print(msg)` in `_drain_queue` and the Tk text-widget insertion are UI; `LogLine.DrainTag` gives the tag chosen.
- `achieved_rps` in `show_summary` is a float division for display only.
- The whole tkinter GUI, `save_json`/`load_json`, log, body and preset file handling, `run_headless`, `build_parser` and `main` are UI, file I/O and argument wiring.
- Probe.Probe.Run: the per-request line format is the probe's `line`, fixed by its constructor as `LineMaker(render)`. The wave list, the clock readings and the stop flag are inputs rather than observed. The tasks a wave launches are an input too: `Run` requires every wave to hold `rps` finished tasks (none when `rps` is zero or below), and the order they finish in and which were cancelled are part of that input. The `asyncio.sleep` is returned as the list of planned pauses rather than performed. `Run` starts from a probe in any consistent state, not only a fresh one.
- Probe.Probe.CountsAddUp: the accumulator count equals `sent` only when every counted request reports a latency. `fetch` always reports one, but the model keeps the source's `latency_ms is not None` test.

=== FILE: common.dfy ===
/** Small failure-carrying datatypes shared by the other modules. */
module Common {

  datatype Option<+T> = None | Some(value: T)

  /** The outcome of an operation that the source may abort with an exception. */
  datatype Result<+T, +E> = Ok(value: T) | Fail(error: E)
}

=== FILE: config.dfy ===
/**
 * The run configuration: how it is built from the form fields (with the
 * form's validation), written to a preset, and read back from one.
 */
module Config {
  import opened Common
  import opened Text
  import Headers

  newtype byte = b: int | 0 <= b < 256

  /** One run's parameters, with the header and body text they came from. */
  datatype RunConfig = RunConfig(
    url: string,
    httpMethod: string,
    rps: int,
    durationS: int,
    timeoutS: real,
    headers: map<string, string>,
    body: Option<seq<byte>>,
    headersText: string,
    bodyText: string)

  // ------------------------------------------------------------- encoding

  /** The UTF-8 encoding of one character. */
  function EncodeChar(c: char): (r: seq<byte>)
    ensures 1 <= |r| <= 4
    ensures (c as int < 0x80) <==> |r| == 1
    ensures |r| == 1 ==> r[0] as int == c as int
  {
    var n := c as int;
    var q1 := n / 64;
    var q2 := q1 / 64;
    var q3 := q2 / 64;
    if n < 0x80 then [n as byte]
    else if n < 0x800 then [(0xC0 + q1) as byte, (0x80 + n % 64) as byte]
    else if n < 0x10000 then [(0xE0 + q2) as byte, (0x80 + q1 % 64) as byte, (0x80 + n % 64) as byte]
    else [(0xF0 + q3) as byte, (0x80 + q2 % 64) as byte, (0x80 + q1 % 64) as byte, (0x80 + n % 64) as byte]
  }

  /** `text.encode("utf-8")`. */
  function Utf8(s: string): (r: seq<byte>)
    ensures |s| <= |r| <= 4 * |s|
  {
    if s == [] then [] else EncodeChar(s[0]) + Utf8(s[1..])
  }

  /** The length of the encoded character that a byte starts, or 0 for a byte that starts none. */
  function LeadLength(b: byte): (len: nat)
    ensures len <= 4
  {
    if b < 0x80 then 1
    else if 0xC0 <= b < 0xE0 then 2
    else if 0xE0 <= b < 0xF0 then 3
    else if 0xF0 <= b < 0xF8 then 4
    else 0
  }

  /** The six payload bits of a continuation byte. */
  predicate IsContinuation(b: byte) {
    0x80 <= b < 0xC0
  }

  /**
   * The character a complete encoded sequence stands for: its lead byte and
   * continuation bytes checked, and overlong forms, surrogates and code points
   * above U+10FFFF refused.
   */
  function DecodeChar(bs: seq<byte>): (c: Option<char>)
    requires 1 <= |bs| <= 4 && LeadLength(bs[0]) == |bs|
    ensures c.Some? && |bs| == 1 ==> c.value as int == bs[0] as int
  {
    if exists k :: 1 <= k < |bs| && !IsContinuation(bs[k]) then None
    else
      var n :=
        if |bs| == 1 then bs[0] as int
        else if |bs| == 2 then (bs[0] as int - 0xC0) * 64 + (bs[1] as int - 0x80)
        else if |bs| == 3 then ((bs[0] as int - 0xE0) * 64 + (bs[1] as int - 0x80)) * 64 + (bs[2] as int - 0x80)
        else (((bs[0] as int - 0xF0) * 64 + (bs[1] as int - 0x80)) * 64 + (bs[2] as int - 0x80)) * 64 + (bs[3] as int - 0x80);
      var least := if |bs| == 1 then 0 else if |bs| == 2 then 0x80 else if |bs| == 3 then 0x800 else 0x10000;
      if least <= n < 0xD800 || 0xE000 <= n < 0x110000 then Some(n as char) else None
  }

  /** `data.decode("utf-8")`: the text a byte string encodes, or `None` for malformed input. */
  function Decode(bs: seq<byte>): (s: Option<string>)
    ensures s.Some? ==> |s.value| <= |bs|
    decreases |bs|
  {
    if bs == [] then Some([])
    else
      var len := LeadLength(bs[0]);
      if len == 0 || len > |bs| then None
      else match (DecodeChar(bs[..len]), Decode(bs[len..]))
        case (Some(c), Some(rest)) => Some([c] + rest)
        case _ => None
  }

  /** Each character's encoding is a complete sequence that decodes back to it. */
  lemma DecodeEncodeChar(c: char)
    ensures LeadLength(EncodeChar(c)[0]) == |EncodeChar(c)|
    ensures DecodeChar(EncodeChar(c)) == Some(c)
  {
    var n := c as int;
    var q1 := n / 64;
    var q2 := q1 / 64;
    var q3 := q2 / 64;
    assert n == q1 * 64 + n % 64 && q1 == q2 * 64 + q1 % 64 && q2 == q3 * 64 + q2 % 64;
  }

  /** Decoding undoes `Utf8`: the encoding of every text decodes back to it. */
  lemma {:induction false} DecodeUtf8(s: string)
    ensures Decode(Utf8(s)) == Some(s)
  {
    if s != [] {
      var e, rest := EncodeChar(s[0]), Utf8(s[1..]);
      DecodeEncodeChar(s[0]);
      DecodeUtf8(s[1..]);
      var bs := e + rest;
      assert bs[0] == e[0] && bs[..|e|] == e && bs[|e|..] == rest;
      assert s == [s[0]] + s[1..];
    }
  }

  /** The request body: the encoded body text, which decodes back to it, or none when the text is empty. */
  function BodyOf(bodyText: string): (body: Option<seq<byte>>)
    ensures body.None? <==> bodyText == []
    ensures body.Some? ==> |bodyText| <= |body.value| <= 4 * |bodyText|
    ensures body.Some? ==> Decode(body.value) == Some(bodyText)
  {
    if bodyText == [] then None else DecodeUtf8(bodyText); Some(Utf8(bodyText))
  }

  /**
   * `RunConfig.from_fields`: parses the header text and encodes the body, and
   * checks nothing else; a malformed header line is the only failure.
   */
  function FromFields(url: string, httpMethod: string, rps: int, durationS: int, timeoutS: real,
                      headersText: string, bodyText: string): (r: Result<RunConfig, Headers.HeaderError>)
    ensures r.Fail? <==> Headers.ParseHeaders(headersText).Fail?
    ensures r.Fail? ==> r.error == Headers.ParseHeaders(headersText).error
  {
    match Headers.ParseHeaders(headersText)
    case Fail(e) => Fail(e)
    case Ok(headers) =>
      Ok(RunConfig(url, httpMethod, rps, durationS, timeoutS, headers, BodyOf(bodyText), headersText, bodyText))
  }

  /** The HTTP method as entered: stripped and upper-cased, "GET" when that leaves nothing. */
  function NormalizeMethod(httpMethod: string): (r: string)
    ensures r != []
    ensures AllSpace(httpMethod) ==> r == "GET"
    ensures !AllSpace(httpMethod) ==> r == Upper(Trim(httpMethod))
  {
    TrimEmptyIff(httpMethod);
    var m := Upper(Trim(httpMethod));
    if m == [] then "GET" else m
  }

  /** A normalised method is a non-empty, stripped, upper-case word, and normalising it again changes nothing. */
  lemma NormalizeMethodIdempotent(httpMethod: string)
    ensures var r := NormalizeMethod(httpMethod);
      r != [] && IsTrimmed(r) && Upper(r) == r && NormalizeMethod(r) == r
  {
    var t := Trim(httpMethod);
    UpperKeepsTrimmed(t);
    var m := Upper(t);
    UpperIdempotent(t);
    TrimTrimmed(m);
    if m == [] {
      assert Upper("GET") == "GET";
      TrimTrimmed("GET");
    }
  }

  // ----------------------------------------------------------------- the form

  /** The raw text of the form's fields. */
  datatype Form = Form(
    url: string, rps: string, duration: string, timeout: string,
    httpMethod: string, headers: string, body: string)

  datatype ConfigError =
    | InvalidInput                            // the form's "check the input values" error
    | MissingUrl                              // a preset without a "url" entry
    | BadValue(key: string)                   // a preset entry that `int`/`float` rejects
    | BadHeaders(error: Headers.HeaderError)  // a malformed header line

  /**
   * The fields of the form are valid: a non-empty stripped URL, a positive
   * integer rate and duration, and a positive timeout.
   */
  predicate FieldsAccepted(form: Form, parseFloat: string -> Option<real>) {
    && Trim(form.url) != []
    && ParseInt(Trim(form.rps)).Some? && ParseInt(Trim(form.rps)).value > 0
    && ParseInt(Trim(form.duration)).Some? && ParseInt(Trim(form.duration)).value > 0
    && parseFloat(Trim(form.timeout)).Some? && parseFloat(Trim(form.timeout)).value > 0.0
  }

  /**
   * `collect_config`: strips the URL, reads the rate and duration as integers
   * and the timeout with `parseFloat` (Python's `float` on a string), normalises
   * the method, and rejects the form unless the URL is non-empty and the rate,
   * duration and timeout are positive; then builds the configuration.
   */
  function CollectConfig(form: Form, parseFloat: string -> Option<real>): (r: Result<RunConfig, ConfigError>)
    ensures r.Ok? <==> FieldsAccepted(form, parseFloat) && Headers.ParseHeaders(form.headers).Ok?
    ensures !FieldsAccepted(form, parseFloat) ==> r == Fail(InvalidInput)
    ensures FieldsAccepted(form, parseFloat) && Headers.ParseHeaders(form.headers).Fail? ==>
      r == Fail(BadHeaders(Headers.ParseHeaders(form.headers).error))
    ensures r.Fail? && r.error.BadHeaders? ==> Headers.ParseHeaders(form.headers) == Fail(r.error.error)
  {
    var url := Trim(form.url);
    var rps := ParseInt(Trim(form.rps));
    var duration := ParseInt(Trim(form.duration));
    var timeout := parseFloat(Trim(form.timeout));
    var httpMethod := NormalizeMethod(form.httpMethod);
    if rps.None? || duration.None? || timeout.None? then Fail(InvalidInput)
    else if url == [] || rps.value <= 0 || duration.value <= 0 || timeout.value <= 0.0 then Fail(InvalidInput)
    else match FromFields(url, httpMethod, rps.value, duration.value, timeout.value, form.headers, form.body)
      case Fail(e) => Fail(BadHeaders(e))
      case Ok(c) => Ok(c)
  }

  /**
   * What every configuration the tool builds satisfies: a stripped URL, a
   * normalised method, and headers and body that are those of its texts.
   */
  predicate Storable(c: RunConfig) {
    && IsTrimmed(c.url)
    && NormalizeMethod(c.httpMethod) == c.httpMethod
    && FromFields(c.url, c.httpMethod, c.rps, c.durationS, c.timeoutS, c.headersText, c.bodyText) == Ok(c)
  }

  /** What a configuration accepted from the form satisfies in addition. */
  predicate Normalized(c: RunConfig) {
    && Storable(c)
    && c.url != []
    && c.rps > 0 && c.durationS > 0 && c.timeoutS > 0.0
  }

  /**
   * A configuration from the form has a non-empty stripped URL, positive rate,
   * duration and timeout, a normalised method, the headers its header text
   * parses to, and a body exactly when its body text is non-empty.
   */
  lemma CollectedConfigNormalized(form: Form, parseFloat: string -> Option<real>)
    requires CollectConfig(form, parseFloat).Ok?
    ensures var c := CollectConfig(form, parseFloat).value;
      && Normalized(c)
      && c.url == Trim(form.url)
      && c.httpMethod == NormalizeMethod(form.httpMethod)
      && c.rps == ParseInt(Trim(form.rps)).value
      && c.durationS == ParseInt(Trim(form.duration)).value
      && c.timeoutS == parseFloat(Trim(form.timeout)).value
      && Headers.ParseHeaders(form.headers) == Ok(c.headers)
      && (c.body.None? <==> form.body == [])
      && c.headersText == form.headers && c.bodyText == form.body
  {
    NormalizeMethodIdempotent(form.httpMethod);
  }

  // -------------------------------------------------------------- presets

  /** A JSON value as a preset file can hold it. */
  datatype Value = Str(s: string) | Int(i: int) | Num(r: real) | Bool(b: bool) | Null

  /** `data.get(key, default)`. */
  function Get(data: map<string, Value>, key: string, fallback: Value): (v: Value)
    ensures key !in data ==> v == fallback
  {
    if key in data then data[key] else fallback
  }

  /** Python's `str(v)`; `floatRepr` renders a float. */
  function PyStr(v: Value, floatRepr: real -> string): string
  {
    match v
    case Str(s) => s
    case Int(i) => IntToString(i)
    case Num(r) => floatRepr(r)
    case Bool(b) => if b then "True" else "False"
    case Null => "None"
  }

  /** Python's truth value of `v`. */
  predicate Truthy(v: Value) {
    match v
    case Str(s) => s != []
    case Int(i) => i != 0
    case Num(r) => r != 0.0
    case Bool(b) => b
    case Null => false
  }

  /** `str(v or "")`: the text of a value, with every false value read as no text. */
  function TextOf(v: Value, floatRepr: real -> string): (s: string)
    ensures !Truthy(v) ==> s == []
    ensures v.Str? ==> s == v.s
  {
    if Truthy(v) then PyStr(v, floatRepr) else ""
  }

  /** The integer part of a real, rounding toward zero as Python's `int(float)` does. */
  function Truncate(r: real): (i: int)
    ensures r >= 0.0 ==> i as real <= r < i as real + 1.0
    ensures r < 0.0 ==> i as real - 1.0 < r <= i as real
  {
    if r >= 0.0 then r.Floor else -((-r).Floor)
  }

  /** Python's `int(v)`; `None` where it raises. */
  function PyInt(v: Value): (r: Option<int>)
    ensures v.Str? ==> r == ParseInt(Trim(v.s))
    ensures v.Int? ==> r == Some(v.i)
    ensures v.Num? ==> r.Some?
    ensures v.Num? && v.r >= 0.0 ==> r.value as real <= v.r < r.value as real + 1.0
    ensures v.Num? && v.r < 0.0 ==> r.value as real - 1.0 < v.r <= r.value as real
    ensures v.Bool? ==> r == Some(if v.b then 1 else 0)
    ensures v.Null? ==> r.None?
  {
    match v
    case Str(s) => ParseInt(Trim(s))
    case Int(i) => Some(i)
    case Num(r) => Some(Truncate(r))
    case Bool(b) => Some(if b then 1 else 0)
    case Null => None
  }

  /** Python's `float(v)`; `parseFloat` reads a string; `None` where it raises. */
  function PyFloat(v: Value, parseFloat: string -> Option<real>): Option<real>
  {
    match v
    case Str(s) => parseFloat(s)
    case Int(i) => Some(i as real)
    case Num(r) => Some(r)
    case Bool(b) => Some(if b then 1.0 else 0.0)
    case Null => None
  }

  /** `RunConfig.to_dict`: the entries a preset or a result file records. */
  function ToDict(c: RunConfig): (data: map<string, Value>)
    ensures data.Keys == {"url", "method", "rps", "duration_s", "timeout_s", "headers", "body"}
    ensures data["url"] == Str(c.url) && data["method"] == Str(c.httpMethod)
    ensures data["rps"] == Int(c.rps) && data["duration_s"] == Int(c.durationS) && data["timeout_s"] == Num(c.timeoutS)
    ensures data["headers"] == Str(c.headersText) && data["body"] == Str(c.bodyText)
  {
    map["url" := Str(c.url), "method" := Str(c.httpMethod), "rps" := Int(c.rps),
        "duration_s" := Int(c.durationS), "timeout_s" := Num(c.timeoutS),
        "headers" := Str(c.headersText), "body" := Str(c.bodyText)]
  }

  /**
   * `RunConfig.from_dict`: the URL is required and stripped, the method
   * normalised, the rate and duration default to 1 and the timeout to 10, the
   * header and body text to nothing; the values are not checked further.
   */
  function FromDict(data: map<string, Value>, parseFloat: string -> Option<real>, floatRepr: real -> string)
    : (r: Result<RunConfig, ConfigError>)
    ensures r == Fail(MissingUrl) <==> "url" !in data
    ensures "url" in data ==>
      var rps := PyInt(Get(data, "rps", Int(1)));
      var duration := PyInt(Get(data, "duration_s", Int(1)));
      var timeout := PyFloat(Get(data, "timeout_s", Int(10)), parseFloat);
      var parsed := Headers.ParseHeaders(TextOf(Get(data, "headers", Str("")), floatRepr));
      && (rps.None? ==> r == Fail(BadValue("rps")))
      && (rps.Some? && duration.None? ==> r == Fail(BadValue("duration_s")))
      && (rps.Some? && duration.Some? && timeout.None? ==> r == Fail(BadValue("timeout_s")))
      && (rps.Some? && duration.Some? && timeout.Some? ==>
            (r.Ok? <==> parsed.Ok?) && (parsed.Fail? ==> r == Fail(BadHeaders(parsed.error))))
    ensures r.Ok? ==> Storable(r.value)
    ensures r.Ok? ==>
      && r.value.url == Trim(PyStr(data["url"], floatRepr))
      && r.value.httpMethod == NormalizeMethod(PyStr(Get(data, "method", Str("GET")), floatRepr))
      && PyInt(Get(data, "rps", Int(1))) == Some(r.value.rps)
      && PyInt(Get(data, "duration_s", Int(1))) == Some(r.value.durationS)
      && PyFloat(Get(data, "timeout_s", Int(10)), parseFloat) == Some(r.value.timeoutS)
      && r.value.headersText == TextOf(Get(data, "headers", Str("")), floatRepr)
      && r.value.bodyText == TextOf(Get(data, "body", Str("")), floatRepr)
  {
    if "url" !in data then Fail(MissingUrl)
    else
      var url := Trim(PyStr(data["url"], floatRepr));
      var rawMethod := PyStr(Get(data, "method", Str("GET")), floatRepr);
      NormalizeMethodIdempotent(rawMethod);
      var httpMethod := NormalizeMethod(rawMethod);
      var rps := PyInt(Get(data, "rps", Int(1)));
      var duration := PyInt(Get(data, "duration_s", Int(1)));
      var timeout := PyFloat(Get(data, "timeout_s", Int(10)), parseFloat);
      if rps.None? then Fail(BadValue("rps"))
      else if duration.None? then Fail(BadValue("duration_s"))
      else if timeout.None? then Fail(BadValue("timeout_s"))
      else
        var headersText := TextOf(Get(data, "headers", Str("")), floatRepr);
        var bodyText := TextOf(Get(data, "body", Str("")), floatRepr);
        match FromFields(url, httpMethod, rps.value, duration.value, timeout.value, headersText, bodyText)
        case Fail(e) => Fail(BadHeaders(e))
        case Ok(c) => Ok(c)
  }

  /**
   * Reading back what `ToDict` wrote gives the same configuration, for every
   * configuration the tool builds, whether from the form or from a preset.
   */
  lemma PresetRoundTrip(c: RunConfig, parseFloat: string -> Option<real>, floatRepr: real -> string)
    requires Storable(c)
    ensures FromDict(ToDict(c), parseFloat, floatRepr) == Ok(c)
  {
    var data := ToDict(c);
    TrimTrimmed(c.url);
    assert Trim(PyStr(data["url"], floatRepr)) == c.url;
    assert NormalizeMethod(PyStr(Get(data, "method", Str("GET")), floatRepr)) == c.httpMethod;
    assert PyInt(Get(data, "rps", Int(1))) == Some(c.rps);
    assert PyInt(Get(data, "duration_s", Int(1))) == Some(c.durationS);
    assert PyFloat(Get(data, "timeout_s", Int(10)), parseFloat) == Some(c.timeoutS);
    assert TextOf(Get(data, "headers", Str("")), floatRepr) == c.headersText;
    assert TextOf(Get(data, "body", Str("")), floatRepr) == c.bodyText;
  }

  /** Every configuration a preset loads to is saved and loaded again unchanged. */
  lemma LoadedPresetRoundTrip(data: map<string, Value>, parseFloat: string -> Option<real>, floatRepr: real -> string)
    ensures var r := FromDict(data, parseFloat, floatRepr);
      r.Ok? ==> FromDict(ToDict(r.value), parseFloat, floatRepr) == r
  {
    var r := FromDict(data, parseFloat, floatRepr);
    if r.Ok? {
      PresetRoundTrip(r.value, parseFloat, floatRepr);
    }
  }

  /** A configuration taken from the form survives being saved as a preset and loaded again. */
  lemma CollectedConfigRoundTrip(form: Form, parseFloat: string -> Option<real>, floatRepr: real -> string)
    requires CollectConfig(form, parseFloat).Ok?
    ensures FromDict(ToDict(CollectConfig(form, parseFloat).value), parseFloat, floatRepr)
      == CollectConfig(form, parseFloat)
  {
    CollectedConfigNormalized(form, parseFloat);
    PresetRoundTrip(CollectConfig(form, parseFloat).value, parseFloat, floatRepr);
  }

  /**
   * A "url" entry is the only one a preset needs: the other settings default
   * to GET, a rate and duration of 1, a 10-second timeout, no headers and no body.
   */
  lemma PresetDefaults(data: map<string, Value>, parseFloat: string -> Option<real>, floatRepr: real -> string)
    ensures data.Keys == {"url"} ==>
      FromDict(data, parseFloat, floatRepr)
        == Ok(RunConfig(Trim(PyStr(data["url"], floatRepr)), "GET", 1, 1, 10.0, map[], None, "", ""))
  {
    if data.Keys == {"url"} {
      assert "method" !in data && "rps" !in data && "duration_s" !in data && "timeout_s" !in data;
      assert "headers" !in data && "body" !in data;
      assert NormalizeMethod(PyStr(Get(data, "method", Str("GET")), floatRepr)) == "GET" by {
        TrimTrimmed("GET");
        assert Upper("GET") == "GET";
      }
      assert TextOf(Get(data, "headers", Str("")), floatRepr) == "";
      assert Headers.ParseHeaders("") == Ok(map[]) by {
        assert AllSpace("");
      }
      assert TextOf(Get(data, "body", Str("")), floatRepr) == "";
      assert BodyOf("") == None;
      assert PyInt(Get(data, "rps", Int(1))) == Some(1);
      assert PyInt(Get(data, "duration_s", Int(1))) == Some(1);
      assert PyFloat(Get(data, "timeout_s", Int(10)), parseFloat) == Some(10.0);
      var url := Trim(PyStr(data["url"], floatRepr));
      assert FromFields(url, "GET", 1, 1, 10.0, "", "") == Ok(RunConfig(url, "GET", 1, 1, 10.0, map[], None, "", ""));
    }
  }

  /** A preset is not checked the way the form is: a zero rate and an empty URL load without complaint. */
  lemma PresetUnchecked(parseFloat: string -> Option<real>, floatRepr: real -> string)
    ensures var data := map["url" := Str(" "), "rps" := Int(0)];
      FromDict(data, parseFloat, floatRepr).Ok?
      && FromDict(data, parseFloat, floatRepr).value.url == []
      && FromDict(data, parseFloat, floatRepr).value.rps == 0
  {
    var data := map["url" := Str(" "), "rps" := Int(0)];
    assert Trim(" ") == [] by {
      TrimEmptyIff(" ");
    }
    assert Upper(Trim("GET")) == "GET" by {
      TrimTrimmed("GET");
    }
    assert SplitLines("") == [];
  }
}

=== FILE: headers.dfy ===
/**
 * The header-text parser: raw `Name: Value` lines, as typed into the header box
 * or stored in a preset, become the header dictionary sent with every request.
 */
module Headers {
  import opened Common
  import opened Text

  /** The two ways a header line can be rejected; each carries the offending raw line. */
  datatype HeaderError = MissingColon(line: string) | EmptyName(line: string)

  /** What one raw line contributes. */
  datatype LineKind = Blank | Header(name: string, value: string) | Bad(error: HeaderError)

  /** Index of the first occurrence of `c` in `s`, or `|s|` when `c` does not occur. */
  function IndexOf(s: string, c: char): (i: nat)
    ensures i <= |s|
    decreases |s|
  {
    if s == [] then 0
    else if s[0] == c then 0
    else 1 + IndexOf(s[1..], c)
  }

  /** `IndexOf` stops at the first occurrence, and runs off the end only when there is none. */
  lemma {:induction false} IndexOfSpec(s: string, c: char)
    ensures var i := IndexOf(s, c);
      && i <= |s| && (forall k :: 0 <= k < i ==> s[k] != c) && (i < |s| ==> s[i] == c)
      && (i == |s| <==> c !in s)
    decreases |s|
  {
    if s != [] && s[0] != c {
      IndexOfSpec(s[1..], c);
      assert forall k :: 1 <= k < |s| ==> s[k] == s[1..][k - 1];
    }
  }

  /**
   * The treatment of one line: stripped; skipped when blank; an error without a
   * colon; split at its first colon; both halves stripped; an error when the
   * name comes out empty.
   */
  function ClassifyLine(line: string): (k: LineKind)
    ensures k == Blank <==> AllSpace(line)
    ensures k.Bad? ==> k.error.line == line
    ensures k.Header? ==> IsHeaderName(k.name) && IsTrimmed(k.value)
  {
    TrimEmptyIff(line);
    var striped := Trim(line);
    if striped == [] then Blank
    else if ':' !in striped then Bad(MissingColon(line))
    else
      IndexOfSpec(striped, ':');
      var i := IndexOf(striped, ':');
      assert ':' !in striped[..i];
      TrimKeepsNonSpace(striped[..i], ':');
      var name := Trim(striped[..i]);
      if name == [] then Bad(EmptyName(line))
      else Header(name, Trim(striped[i + 1..]))
  }

  /** A name a header line can define: non-empty, stripped, without a colon. */
  predicate IsHeaderName(name: string) {
    name != [] && IsTrimmed(name) && ':' !in name
  }

  /** A dictionary whose every entry a header line could have made. */
  predicate WellFormed(headers: map<string, string>) {
    forall name :: name in headers ==> IsHeaderName(name) && IsTrimmed(headers[name])
  }

  /** The classification of each line, in order. */
  function Classify(lines: seq<string>): (kinds: seq<LineKind>)
    ensures |kinds| == |lines|
  {
    seq(|lines|, k requires 0 <= k < |lines| => ClassifyLine(lines[k]))
  }

  /** Folds the classified lines into `acc` from first to last; the first bad line aborts. */
  function ParseLines(kinds: seq<LineKind>, acc: map<string, string>): Result<map<string, string>, HeaderError>
    decreases |kinds|
  {
    if kinds == [] then Ok(acc)
    else match kinds[0]
      case Blank => ParseLines(kinds[1..], acc)
      case Bad(e) => Fail(e)
      case Header(name, value) => ParseLines(kinds[1..], acc[name := value])
  }

  /** The dictionary `parse_header_lines(raw)` returns, or the error it raises. */
  function ParseHeaders(raw: string): (r: Result<map<string, string>, HeaderError>)
    ensures AllSpace(raw) ==> r == Ok(map[])
    ensures r.Ok? ==> WellFormed(r.value)
  {
    var kinds := Classify(SplitLines(raw));
    ParseLinesWellFormed(kinds, map[]);
    assert AllSpace(raw) ==> ParseLines(kinds, map[]) == Ok(map[]) by {
      if AllSpace(raw) {
        SplitLinesBlank(raw);
        ParseLinesBlank(kinds, map[]);
      }
    }
    ParseLines(kinds, map[])
  }

  /** Folding classified lines into a well-formed dictionary keeps it well-formed. */
  lemma {:induction false} ParseLinesWellFormed(kinds: seq<LineKind>, acc: map<string, string>)
    requires WellFormed(acc)
    requires forall k :: 0 <= k < |kinds| && kinds[k].Header? ==> IsHeaderName(kinds[k].name) && IsTrimmed(kinds[k].value)
    ensures ParseLines(kinds, acc).Ok? ==> WellFormed(ParseLines(kinds, acc).value)
    decreases |kinds|
  {
    if kinds != [] {
      assert forall k :: 0 <= k < |kinds[1..]| ==> kinds[1..][k] == kinds[k + 1];
      match kinds[0]
      case Blank => ParseLinesWellFormed(kinds[1..], acc);
      case Bad(_) =>
      case Header(n, v) => ParseLinesWellFormed(kinds[1..], acc[n := v]);
    }
  }

  /** Blank lines leave the dictionary as it was. */
  lemma {:induction false} ParseLinesBlank(kinds: seq<LineKind>, acc: map<string, string>)
    requires forall k :: 0 <= k < |kinds| ==> kinds[k] == Blank
    ensures ParseLines(kinds, acc) == Ok(acc)
    decreases |kinds|
  {
    if kinds != [] {
      assert forall k :: 0 <= k < |kinds[1..]| ==> kinds[1..][k] == kinds[k + 1];
      ParseLinesBlank(kinds[1..], acc);
    }
  }

  /** `parse_header_lines`: fills the dictionary line by line, raising on the first bad line. */
  method ParseHeaderLines(raw: string) returns (r: Result<map<string, string>, HeaderError>)
    ensures r == ParseHeaders(raw)
  {
    var lines := SplitLines(raw);
    ghost var kinds := Classify(lines);
    var headers: map<string, string> := map[];
    var k := 0;
    while k < |lines|
      invariant 0 <= k <= |lines|
      invariant ParseLines(kinds[k..], headers) == ParseHeaders(raw)
    {
      var line := lines[k];
      assert kinds[k..][0] == ClassifyLine(line);
      assert kinds[k..][1..] == kinds[k + 1..];
      var striped := Trim(line);
      if striped == [] {
        k := k + 1;
        continue;
      }
      if ':' !in striped {
        return Fail(MissingColon(line));
      }
      IndexOfSpec(striped, ':');
      var i := IndexOf(striped, ':');
      var name := Trim(striped[..i]);
      var value := Trim(striped[i + 1..]);
      if name == [] {
        return Fail(EmptyName(line));
      }
      headers := headers[name := value];
      k := k + 1;
    }
    return Ok(headers);
  }

  // ------------------------------------------------------------ one line

  /** The first colon of a line is the first colon of its stripped text, shifted. */
  lemma ColonSplit(line: string)
    requires ':' in line
    ensures ':' in Trim(line)
    ensures IndexOf(line, ':') < |line| && IndexOf(Trim(line), ':') < |Trim(line)|
    ensures var d := IndexOf(Trim(line), ':'); var c := IndexOf(line, ':');
      && Trim(Trim(line)[..d]) == Trim(line[..c])
      && Trim(Trim(line)[d + 1..]) == Trim(line[c + 1..])
  {
    TrimKeepsNonSpace(line, ':');
    IndexOfSpec(line, ':');
    var i, j := TrimSlice(line);
    ColonAt(line, i, j);
  }

  /** `ColonSplit` for a line whose stripped text is `line[i..j]`. */
  lemma ColonAt(line: string, i: nat, j: nat)
    requires i <= j <= |line| && AllSpace(line[..i]) && AllSpace(line[j..])
    requires ':' in line[i..j]
    ensures IndexOf(line, ':') < |line| && IndexOf(line[i..j], ':') < j - i
    ensures var d := IndexOf(line[i..j], ':'); var c := IndexOf(line, ':');
      && Trim(line[i..j][..d]) == Trim(line[..c])
      && Trim(line[i..j][d + 1..]) == Trim(line[c + 1..])
  {
    var striped := line[i..j];
    IndexOfSpec(striped, ':');
    var d := IndexOf(striped, ':');
    assert d < j - i && line[i + d] == ':' by {
      assert striped[d] == ':';
    }
    forall k | i <= k < i + d
      ensures line[k] != ':'
    {
      assert line[k] == striped[k - i];
    }
    FirstColonShift(line, i, j, d);
    SplitAround(line, i, j, d);
    var c := IndexOf(line, ':');
    assert c == i + d;
    assert line[..c] == line[..i + d] && line[c + 1..] == line[i + d + 1..];
    assert Trim(striped[..d]) == Trim(line[..c]);
    assert Trim(striped[d + 1..]) == Trim(line[c + 1..]);
  }

  /** Stripping the pieces around a colon at `i + d` of a line whose stripped text is `line[i..j]`. */
  lemma SplitAround(line: string, i: nat, j: nat, d: nat)
    requires i + d < j <= |line| && AllSpace(line[..i]) && AllSpace(line[j..])
    ensures Trim(line[..i + d]) == Trim(line[i..j][..d])
    ensures Trim(line[i + d + 1..]) == Trim(line[i..j][d + 1..])
  {
    AroundColon(line, i, j, d);
    TrimAbsorbs(line[..i], line[i..j][..d], []);
    TrimAbsorbs([], line[i..j][d + 1..], line[j..]);
  }

  lemma FirstColonShift(line: string, i: nat, j: nat, d: nat)
    requires i <= j <= |line| && AllSpace(line[..i])
    requires d < j - i && line[i + d] == ':' && forall k :: i <= k < i + d ==> line[k] != ':'
    ensures IndexOf(line, ':') == i + d
  {
    forall k | 0 <= k < i + d
      ensures line[k] != ':'
    {
      if k < i {
        assert IsSpace(line[..i][k]);
      }
    }
    IndexOfFirst(line, ':', i + d);
  }

  /**
   * A line that is not blank is rejected for a missing colon exactly when no
   * colon occurs in it, and for an empty name exactly when the text before its
   * first colon is whitespace only; otherwise the name is the stripped text
   * before the first colon and the value the stripped text after it.
   */
  lemma ClassifyRawLine(line: string)
    requires !AllSpace(line)
    ensures ClassifyLine(line) == Bad(MissingColon(line)) <==> ':' !in line
    ensures ':' in line ==> IndexOf(line, ':') < |line|
    ensures ':' in line ==>
      var c := IndexOf(line, ':');
      && (ClassifyLine(line) == Bad(EmptyName(line)) <==> AllSpace(line[..c]))
      && (!AllSpace(line[..c]) ==> ClassifyLine(line) == Header(Trim(line[..c]), Trim(line[c + 1..])))
  {
    TrimEmptyIff(line);
    TrimKeepsNonSpace(line, ':');
    if ':' in line {
      ClassifyColonLine(line);
    }
  }

  /** A line with a colon is classified by the stripped text before and after its first colon. */
  lemma ClassifyColonLine(line: string)
    requires !AllSpace(line) && ':' in line
    ensures IndexOf(line, ':') < |line|
    ensures var c := IndexOf(line, ':');
      ClassifyLine(line) == if AllSpace(line[..c]) then Bad(EmptyName(line))
        else Header(Trim(line[..c]), Trim(line[c + 1..]))
  {
    TrimEmptyIff(line);
    TrimKeepsNonSpace(line, ':');
    ColonSplit(line);
    var striped := Trim(line);
    var c := IndexOf(line, ':');
    var d := IndexOf(striped, ':');
    var name := Trim(striped[..d]);
    assert striped != [] && ':' in striped;
    assert ClassifyLine(line) == if name == [] then Bad(EmptyName(line))
      else Header(name, Trim(striped[d + 1..]));
    assert name == Trim(line[..c]) && Trim(striped[d + 1..]) == Trim(line[c + 1..]);
    TrimEmptyIff(line[..c]);
  }

  lemma AroundColon(line: string, i: nat, j: nat, d: nat)
    requires i + d < j <= |line|
    ensures line[..i + d] == line[..i] + line[i..j][..d] + []
    ensures line[i + d + 1..] == [] + line[i..j][d + 1..] + line[j..]
  {
  }

  /** The pieces of a rendered `Name: Value` line. */
  lemma RenderedPieces(name: string, value: string)
    requires name != []
    ensures var line := name + ": " + value;
      && line[0] == name[0] && line[|name|] == ':' && line[..|name|] == name
      && line[|name| + 1..] == " " + value + []
      && forall k :: 0 <= k < |name| ==> line[k] == name[k]
  {
  }

  /** `IndexOf` finds the first occurrence. */
  lemma IndexOfFirst(s: string, c: char, i: nat)
    requires i < |s| && s[i] == c && forall k :: 0 <= k < i ==> s[k] != c
    ensures IndexOf(s, c) == i
  {
    IndexOfSpec(s, c);
  }

  /**
   * Writing a header as `Name: Value` and reading it back gives the same pair,
   * for a stripped non-empty name without colons and a stripped value (which
   * may itself contain colons: only the first colon splits).
   */
  lemma RenderedLineRoundTrip(name: string, value: string)
    requires name != [] && IsTrimmed(name) && ':' !in name && IsTrimmed(value)
    ensures ClassifyLine(name + ": " + value) == Header(name, value)
  {
    var line := name + ": " + value;
    RenderedPieces(name, value);
    assert !AllSpace(line) by {
      assert !IsSpace(line[0]);
    }
    assert !AllSpace(name) by {
      assert !IsSpace(name[0]);
    }
    IndexOfFirst(line, ':', |name|);
    ClassifyRawLine(line);
    TrimTrimmed(name);
    var after := line[|name| + 1..];
    if value == [] {
      assert after == " ";
      TrimEmptyIff(after);
    } else {
      TrimPadded(" ", value, []);
    }
    assert Trim(after) == value;
    var c := IndexOf(line, ':');
    assert line[..c] == name && line[c + 1..] == after;
  }

  // ------------------------------------------------------------ all lines

  /**
   * The value a name ends up with: that of the last header line carrying the
   * name, independently of how the dictionary is filled.
   */
  function LastValue(kinds: seq<LineKind>, name: string): Option<string>
    decreases |kinds|
  {
    if kinds == [] then None
    else
      var later := LastValue(kinds[1..], name);
      if later.Some? then later
      else match kinds[0]
        case Header(n, v) => if n == name then Some(v) else None
        case _ => None
  }

  /** Parsing fails exactly when some line is bad, and it reports the first bad line. */
  lemma {:induction false} ParseLinesFails(kinds: seq<LineKind>, acc: map<string, string>)
    ensures ParseLines(kinds, acc).Fail? <==> exists k :: 0 <= k < |kinds| && kinds[k].Bad?
    ensures ParseLines(kinds, acc).Fail? ==>
      exists k :: 0 <= k < |kinds| && kinds[k] == Bad(ParseLines(kinds, acc).error)
        && forall j :: 0 <= j < k ==> !kinds[j].Bad?
    decreases |kinds|
  {
    if kinds != [] {
      var tail := kinds[1..];
      var acc' := if kinds[0].Header? then acc[kinds[0].name := kinds[0].value] else acc;
      if !kinds[0].Bad? {
        ParseLinesFails(tail, acc');
        assert ParseLines(kinds, acc) == ParseLines(tail, acc');
        assert forall k :: 1 <= k < |kinds| ==> kinds[k] == tail[k - 1];
        if ParseLines(kinds, acc).Fail? {
          var k :| 0 <= k < |tail| && tail[k] == Bad(ParseLines(tail, acc').error)
            && forall j :: 0 <= j < k ==> !tail[j].Bad?;
          assert kinds[k + 1] == tail[k];
        }
      }
    }
  }

  /**
   * On success every name maps to the value of its last header line; a name
   * without header lines keeps what `acc` gave it, if anything.
   */
  lemma {:induction false} ParseLinesContents(kinds: seq<LineKind>, acc: map<string, string>, name: string)
    requires ParseLines(kinds, acc).Ok?
    ensures var m := ParseLines(kinds, acc).value;
      match LastValue(kinds, name)
      case Some(v) => name in m && m[name] == v
      case None => (name in m <==> name in acc) && (name in acc ==> m[name] == acc[name])
    decreases |kinds|
  {
    if kinds != [] {
      match kinds[0]
      case Blank => ParseLinesContents(kinds[1..], acc, name);
      case Header(n, v) => ParseLinesContents(kinds[1..], acc[n := v], name);
    }
  }

  /** Some classified line is bad. */
  predicate AnyBad(kinds: seq<LineKind>) {
    exists k :: 0 <= k < |kinds| && kinds[k].Bad?
  }

  /** Some line classifies as bad. */
  predicate AnyBadLine(lines: seq<string>) {
    exists k :: 0 <= k < |lines| && ClassifyLine(lines[k]).Bad?
  }

  /** Some classified line is bad exactly when some line classifies as bad. */
  lemma ClassifyBad(lines: seq<string>)
    ensures AnyBad(Classify(lines)) <==> AnyBadLine(lines)
  {
    var kinds := Classify(lines);
    if AnyBad(kinds) {
      var k :| 0 <= k < |kinds| && kinds[k].Bad?;
      assert ClassifyLine(lines[k]) == kinds[k];
    }
    if AnyBadLine(lines) {
      var k :| 0 <= k < |lines| && ClassifyLine(lines[k]).Bad?;
      assert kinds[k] == ClassifyLine(lines[k]);
    }
  }

  /** `parse_header_lines` fails exactly when some line is bad. */
  lemma ParseHeadersFails(raw: string)
    ensures ParseHeaders(raw).Fail? <==> AnyBadLine(SplitLines(raw))
  {
    var lines := SplitLines(raw);
    var kinds := Classify(lines);
    assert ParseHeaders(raw) == ParseLines(kinds, map[]);
    ParseLinesFails(kinds, map[]);
    assert ParseLines(kinds, map[]).Fail? <==> AnyBad(kinds);
    ClassifyBad(lines);
  }

  /** On success a name is a key exactly when some line defines it, with the last definition's value. */
  lemma ParseHeadersContents(raw: string, name: string)
    requires ParseHeaders(raw).Ok?
    ensures name in ParseHeaders(raw).value <==> LastValue(Classify(SplitLines(raw)), name).Some?
    ensures name in ParseHeaders(raw).value ==>
      ParseHeaders(raw).value[name] == LastValue(Classify(SplitLines(raw)), name).value
  {
    var kinds := Classify(SplitLines(raw));
    assert ParseHeaders(raw) == ParseLines(kinds, map[]);
    ParseLinesContents(kinds, map[], name);
  }

  /**
   * `parse_header_lines` succeeds exactly when no line is bad; then a name is a
   * key exactly when some line defines it, and its value is the last definition's.
   */
  lemma ParseHeadersSpec(raw: string, name: string)
    ensures var lines := SplitLines(raw);
      && (ParseHeaders(raw).Fail? <==> exists k :: 0 <= k < |lines| && ClassifyLine(lines[k]).Bad?)
      && (ParseHeaders(raw).Ok? ==>
            (name in ParseHeaders(raw).value <==> LastValue(Classify(lines), name).Some?)
            && (name in ParseHeaders(raw).value ==>
                  ParseHeaders(raw).value[name] == LastValue(Classify(lines), name).value))
  {
    ParseHeadersFails(raw);
    assert AnyBadLine(SplitLines(raw)) <==>
      exists k :: 0 <= k < |SplitLines(raw)| && ClassifyLine(SplitLines(raw)[k]).Bad?;
    if ParseHeaders(raw).Ok? {
      ParseHeadersContents(raw, name);
    }
  }
}

=== FILE: latency.dfy ===
/**
 * The latency accumulator: a running count, total, minimum and maximum of the
 * request latencies of one run, in milliseconds, and the mean derived from them.
 */
module Latency {
  import opened Common

  /** The total of the samples. */
  function Sum(samples: seq<real>): real
  {
    if samples == [] then 0.0 else Sum(samples[..|samples| - 1]) + samples[|samples| - 1]
  }

  /** The smallest sample, and no value at all for no samples. */
  function Least(samples: seq<real>): (r: Option<real>)
    ensures r.None? <==> samples == []
  {
    if samples == [] then None
    else
      var earlier := Least(samples[..|samples| - 1]);
      var x := samples[|samples| - 1];
      if earlier.None? || x < earlier.value then Some(x) else earlier
  }

  /** The largest sample, and no value at all for no samples. */
  function Greatest(samples: seq<real>): (r: Option<real>)
    ensures r.None? <==> samples == []
  {
    if samples == [] then None
    else
      var earlier := Greatest(samples[..|samples| - 1]);
      var x := samples[|samples| - 1];
      if earlier.None? || x > earlier.value then Some(x) else earlier
  }

  /** The minimum is at most every sample and the maximum at least every sample. */
  lemma {:induction false} ExtremesBound(samples: seq<real>)
    requires samples != []
    ensures forall k :: 0 <= k < |samples| ==> Least(samples).value <= samples[k] <= Greatest(samples).value
  {
    var init := samples[..|samples| - 1];
    if init != [] {
      ExtremesBound(init);
      assert forall k :: 0 <= k < |init| ==> samples[k] == init[k];
    }
  }

  /** The extremes are themselves samples: the minimum and maximum are attained. */
  lemma {:induction false} ExtremesAreSamples(samples: seq<real>)
    requires samples != []
    ensures Least(samples).value in samples && Greatest(samples).value in samples
  {
    var init := samples[..|samples| - 1];
    assert samples == init + [samples[|samples| - 1]];
    if init != [] {
      ExtremesAreSamples(init);
    }
  }

  /** `n` copies of `x` added up: `n * x` written so that only linear steps are needed. */
  function Times(n: nat, x: real): real
  {
    if n == 0 then 0.0 else Times(n - 1, x) + x
  }

  lemma {:induction false} TimesIsProduct(n: nat, x: real)
    ensures Times(n, x) == n as real * x
  {
    if n > 0 {
      TimesIsProduct(n - 1, x);
      assert n as real * x == (n - 1) as real * x + x;
    }
  }

  lemma {:induction false} TimesMonotone(n: nat, a: real, b: real)
    requires a <= b
    ensures Times(n, a) <= Times(n, b)
  {
    if n > 0 {
      TimesMonotone(n - 1, a, b);
    }
  }

  /** `count * min <= total` for any non-empty run of samples. */
  lemma {:induction false} SumAtLeast(samples: seq<real>)
    requires samples != []
    ensures Times(|samples|, Least(samples).value) <= Sum(samples)
  {
    var n := |samples| - 1;
    var init := samples[..n];
    if init != [] {
      SumAtLeast(init);
      TimesMonotone(n, Least(samples).value, Least(init).value);
    }
  }

  /** `total <= count * max` for any non-empty run of samples. */
  lemma {:induction false} SumAtMost(samples: seq<real>)
    requires samples != []
    ensures Sum(samples) <= Times(|samples|, Greatest(samples).value)
  {
    var n := |samples| - 1;
    var init := samples[..n];
    if init != [] {
      SumAtMost(init);
      TimesMonotone(n, Greatest(init).value, Greatest(samples).value);
    }
  }

  /** A total between `count * lo` and `count * hi` has its average between `lo` and `hi`. */
  lemma AverageBetween(total: real, count: nat, lo: real, hi: real)
    requires count > 0
    requires count as real * lo <= total <= count as real * hi
    ensures lo <= total / count as real <= hi
  {
    var n := count as real;
    var q := total / n;
    assert total == n * q;
    if q < lo { ScaleStrict(n, q, lo); }
    if q > hi { ScaleStrict(n, hi, q); }
  }

  lemma ChainFromTimes(n: nat, lo: real, hi: real, total: real)
    requires n > 0 && Times(n, lo) <= total <= Times(n, hi)
    ensures n as real * lo <= total <= n as real * hi
    ensures lo <= total / n as real <= hi
  {
    TimesIsProduct(n, lo);
    TimesIsProduct(n, hi);
    AverageBetween(total, n, lo, hi);
  }

  lemma ScaleStrict(n: real, a: real, b: real)
    requires n > 0.0 && a < b
    ensures n * a < n * b
  {
  }

  /** Python's `LatencyStats`: updated once for every request that reports a latency. */
  class LatencyStats {
    var count: nat
    var totalMs: real
    var minMs: Option<real>
    var maxMs: Option<real>
    /** Every latency added so far, in order. */
    ghost var samples: seq<real>

    /** The four fields summarise `samples`. */
    ghost predicate Valid()
      reads this
    {
      && count == |samples|
      && totalMs == Sum(samples)
      && minMs == Least(samples)
      && maxMs == Greatest(samples)
    }

    constructor ()
      ensures Valid() && samples == []
      ensures count == 0 && totalMs == 0.0 && minMs == None && maxMs == None
    {
      count := 0;
      totalMs := 0.0;
      minMs := None;
      maxMs := None;
      samples := [];
    }

    /**
     * `add`: one more sample; the first one seeds both extremes, later ones
     * only move an extreme they exceed.
     */
    method Add(latencyMs: real)
      requires Valid()
      modifies this
      ensures Valid() && samples == old(samples) + [latencyMs]
      ensures count == old(count) + 1 && totalMs == old(totalMs) + latencyMs
      ensures minMs == Some(if old(minMs).None? || latencyMs < old(minMs).value then latencyMs else old(minMs).value)
      ensures maxMs == Some(if old(maxMs).None? || latencyMs > old(maxMs).value then latencyMs else old(maxMs).value)
    {
      count := count + 1;
      totalMs := totalMs + latencyMs;
      if minMs.None? || latencyMs < minMs.value {
        minMs := Some(latencyMs);
      }
      if maxMs.None? || latencyMs > maxMs.value {
        maxMs := Some(latencyMs);
      }
      samples := samples + [latencyMs];
      assert samples[..|samples| - 1] == old(samples);
    }

    /** `mean`: no value when nothing was recorded; otherwise the average latency. */
    function Mean(): (r: Option<real>)
      reads this
      ensures r.None? <==> count == 0
    {
      if count == 0 then None else Some(totalMs / count as real)
    }

    /**
     * The accumulator's invariant chain `count * min <= total <= count * max`,
     * and so the mean lies between the recorded minimum and maximum.
     */
    lemma Bounds()
      requires Valid() && count > 0
      ensures minMs.Some? && maxMs.Some? && Mean().Some?
      ensures count as real * minMs.value <= totalMs <= count as real * maxMs.value
      ensures minMs.value <= Mean().value <= maxMs.value
    {
      SumAtLeast(samples);
      SumAtMost(samples);
      ChainFromTimes(count, minMs.value, maxMs.value, totalMs);
    }
  }
}

=== FILE: logline.dfy ===
/**
 * The fixed-width log lines the probe writes for each completed request, and
 * how the log window reads them back: the progress counter from the SEQ
 * column and the colour tag from the STAT column.
 */
module LogLine {
  import opened Common
  import opened Text
  import Tally

  /** The column header shown above the log: TIME, SEQ, STAT, LAT(ms), ERROR. */
  const HeaderLine: string :=
    AlignLeft("TIME", 23) + "  " + AlignRight("SEQ", 6) + "  " + AlignRight("STAT", 5)
    + "  " + AlignRight("LAT(ms)", 8) + "  ERROR"

  /** The error column: the error text stripped, or nothing when there was no error. */
  function ErrorText(error: Option<string>): string
  {
    Trim(if error.Some? then error.value else "")
  }

  /**
   * The log line of one completed request: the timestamp left-aligned in 23
   * columns, the running request number right-aligned in 6, the status key in
   * 5, the latency text in 8 and the stripped error, separated by two spaces.
   */
  function FormatLine(stamp: string, sent: nat, key: Tally.StatusKey, latency: string, error: Option<string>): (line: string)
    ensures |line| >= 50
  {
    AlignLeft(stamp, 23) + "  " + AlignRight(IntToString(sent), 6) + "  "
    + AlignRight(Tally.Display(key), 5) + "  " + AlignRight(latency, 8) + "  " + ErrorText(error)
  }

  /** The line written once the run is over: the number of requests and the elapsed time. */
  function FinalLine(sent: nat, elapsed: string): (line: string)
    ensures line != [] && !IsDigit(line[0])
  {
    "\U{C885}\U{B8CC}: \U{CD1D} " + IntToString(sent) + "\U{AC74}, \U{ACBD}\U{ACFC} " + elapsed + "s"
  }

  // ------------------------------------------------------- reading lines back

  predicate StartsWithDigit(msg: string) {
    msg != [] && IsDigit(msg[0])
  }

  predicate AllDashes(msg: string) {
    msg != [] && forall i :: 0 <= i < |msg| ==> msg[i] == '-'
  }

  /**
   * The request count the progress label shows for a log message: the SEQ
   * column (characters 25 to 30) read as an integer, for a message that starts
   * with a digit and is at least 31 characters long; `None` leaves the label as it was.
   */
  function ProgressCount(msg: string): (r: Option<int>)
    ensures r.Some? ==> StartsWithDigit(msg) && |msg| >= 31
    ensures StartsWithDigit(msg) && |msg| >= 31 ==> r == ParseInt(Trim(msg[25..31]))
    ensures StartsWithDigit(msg) && |msg| >= 31 && Trim(msg[25..31]) != [] && AllDigits(Trim(msg[25..31]))
      ==> r.Some? && r.value >= 0
  {
    if StartsWithDigit(msg) && |msg| >= 31 then ParseInt(Trim(msg[25..31])) else None
  }

  /** The colour tags of the log window. */
  datatype Tag = InfoTag | OkTag | WarnTag | ErrTag

  /** The colour of a numeric status: 2xx green, 429 amber, other 4xx/5xx red, anything else plain. */
  function StatusTag(code: int): (t: Option<Tag>)
    ensures t == Some(OkTag) <==> 200 <= code < 300
    ensures t == Some(WarnTag) <==> code == 429
    ensures t == Some(ErrTag) <==> 400 <= code < 600 && code != 429
    ensures t.None? <==> code < 200 || (300 <= code < 400) || code >= 600
  {
    if 200 <= code < 300 then Some(OkTag)
    else if code == 429 then Some(WarnTag)
    else if 400 <= code < 600 then Some(ErrTag)
    else None
  }

  /** The colour a status key should get: a transport error is red. */
  function KeyTag(k: Tally.StatusKey): (t: Option<Tag>)
    ensures t == Some(ErrTag) <==> k == Tally.Err || (k.Code? && 400 <= k.code < 600 && k.code != 429)
    ensures t == Some(OkTag) <==> k.Code? && 200 <= k.code < 300
    ensures t == Some(WarnTag) <==> k == Tally.Code(429)
    ensures t != Some(InfoTag)
  {
    match k
    case Err => Some(ErrTag)
    case Code(c) => StatusTag(c)
  }

  /**
   * The tag the log window gives a message: `info` for the header and for a
   * line of dashes; for a message of at least 40 characters that starts with a
   * digit, the colour of the STAT column (characters 33 to 37) read as "ERR" or
   * as an integer; otherwise none.
   */
  function DrainTag(msg: string): (t: Option<Tag>)
    ensures t == Some(InfoTag) <==> StartsWith(msg, "TIME ") || AllDashes(msg)
    ensures t.Some? && t != Some(InfoTag) ==> StartsWithDigit(msg) && |msg| >= 40
    ensures StartsWithDigit(msg) && |msg| >= 40 && Trim(msg[33..38]) == "ERR" ==> t == Some(ErrTag)
    ensures StartsWithDigit(msg) && |msg| >= 40 && Trim(msg[33..38]) != "ERR" ==>
      match ParseInt(Trim(msg[33..38]))
      case Some(sc) => t == StatusTag(sc)
      case None => t.None?
  {
    if StartsWith(msg, "TIME ") || AllDashes(msg) then Some(InfoTag)
    else if StartsWithDigit(msg) && |msg| >= 40 then
      var stat := Trim(msg[33..38]);
      if stat == "ERR" then Some(ErrTag)
      else match ParseInt(stat)
        case Some(sc) => StatusTag(sc)
        case None => None
    else None
  }

  // ---------------------------------------------------------------- lemmas

  lemma SliceLeft(p: string, q: string, i: nat, j: nat)
    requires i <= j <= |p|
    ensures (p + q)[i..j] == p[i..j]
  {
  }

  lemma SliceRight(p: string, q: string)
    ensures (p + q)[|p|..|p| + |q|] == q
  {
  }

  /** The prefix of a row that ends with its third column, whatever follows it. */
  lemma RowHead(head: string, d: string, e: string, i: nat, j: nat)
    requires i <= j <= |head|
    ensures (head + "  " + d + "  " + e)[i..j] == head[i..j]
  {
    SliceLeft(head + "  " + d + "  ", e, i, j);
    SliceLeft(head + "  " + d, "  ", i, j);
    SliceLeft(head + "  ", d, i, j);
    SliceLeft(head, "  ", i, j);
  }

  /** The character ranges of the first three columns of a row. */
  lemma RowSlices(a: string, b: string, c: string, d: string, e: string)
    requires |a| == 23 && |b| == 6 && |c| == 5
    ensures var row := a + "  " + b + "  " + c + "  " + d + "  " + e;
      row[0] == a[0] && row[25..31] == b && row[33..38] == c
  {
    var p1 := a + "  ";
    var p2 := p1 + b;
    var p3 := p2 + "  ";
    var p4 := p3 + c;
    RowHead(p4, d, e, 25, 31);
    RowHead(p4, d, e, 33, 38);
    RowHead(p4, d, e, 0, 1);
    SliceLeft(p3, c, 25, 31);
    SliceLeft(p2, "  ", 25, 31);
    SliceRight(p1, b);
    SliceRight(p3, c);
  }

  /** Where the fields of a request line sit, as long as each fits its column. */
  lemma Columns(stamp: string, sent: nat, key: Tally.StatusKey, latency: string, error: Option<string>)
    requires |stamp| <= 23 && sent <= 999999 && |Tally.Display(key)| <= 5
    ensures var line := FormatLine(stamp, sent, key, latency, error);
      && (stamp != [] ==> line[0] == stamp[0])
      && line[25..31] == AlignRight(IntToString(sent), 6)
      && line[33..38] == AlignRight(Tally.Display(key), 5)
  {
    NatToStringLength(sent, 6);
    assert IntToString(sent) == NatToString(sent);
    var a, b, c := AlignLeft(stamp, 23), AlignRight(IntToString(sent), 6), AlignRight(Tally.Display(key), 5);
    assert |a| == 23 && |b| == 6 && |c| == 5;
    assert stamp != [] ==> a[0] == stamp[0];
    RowSlices(a, b, c, AlignRight(latency, 8), ErrorText(error));
  }

  /**
   * The progress label reads back the request number of every request line
   * whose timestamp starts with a digit, up to request 999999.
   */
  lemma ProgressRoundTrip(stamp: string, sent: nat, key: Tally.StatusKey, latency: string, error: Option<string>)
    requires |stamp| <= 23 && StartsWithDigit(stamp)
    requires sent <= 999999 && |Tally.Display(key)| <= 5
    ensures ProgressCount(FormatLine(stamp, sent, key, latency, error)) == Some(sent)
  {
    Columns(stamp, sent, key, latency, error);
    ProgressOfColumn(FormatLine(stamp, sent, key, latency, error), sent);
  }

  /** A line starting with a digit whose SEQ column holds `n` right-aligned shows `n` in the progress label. */
  lemma ProgressOfColumn(line: string, n: nat)
    requires |line| >= 31 && StartsWithDigit(line) && line[25..31] == AlignRight(IntToString(n), 6)
    ensures ProgressCount(line) == Some(n)
  {
    TrimAlignRight(IntToString(n), 6);
    ParseIntToString(n);
  }

  /**
   * The log window colours every request line as its status key deserves:
   * a 2xx green, a 429 amber, another 4xx/5xx or a transport error red.
   */
  lemma TagRoundTrip(stamp: string, sent: nat, key: Tally.StatusKey, latency: string, error: Option<string>)
    requires |stamp| <= 23 && StartsWithDigit(stamp)
    requires sent <= 999999 && |Tally.Display(key)| <= 5
    ensures DrainTag(FormatLine(stamp, sent, key, latency, error)) == KeyTag(key)
  {
    Columns(stamp, sent, key, latency, error);
    TagOfColumn(FormatLine(stamp, sent, key, latency, error), key);
  }

  /** A line starting with a digit whose STAT column holds a key right-aligned gets that key's colour. */
  lemma TagOfColumn(line: string, key: Tally.StatusKey)
    requires |line| >= 40 && StartsWithDigit(line) && line[33..38] == AlignRight(Tally.Display(key), 5)
    ensures DrainTag(line) == KeyTag(key)
  {
    assert !StartsWith(line, "TIME ") by { assert "TIME "[0] == 'T'; }
    assert !AllDashes(line) by { assert line[0] != '-'; }
    var d := Tally.Display(key);
    TrimAlignRight(d, 5);
    Tally.ParseDisplay(key);
    if key.Code? {
      ParseIntToString(key.code);
    }
  }

  /** The SEQ and STAT titles have no surrounding whitespace. */
  lemma TitlesTrimmed()
    ensures IsTrimmed("SEQ") && IsTrimmed("STAT")
  {
    assert "SEQ"[0] == 'S' && "SEQ"[2] == 'Q';
    assert "STAT"[0] == 'S' && "STAT"[3] == 'T';
  }

  /**
   * The header's titles sit over the SEQ and STAT columns; the header is only
   * shown as a label, but were it drained it would be tagged `info` and move no progress.
   */
  lemma HeaderLineLayout()
    ensures |HeaderLine| == 55
    ensures DrainTag(HeaderLine) == Some(InfoTag)
    ensures ProgressCount(HeaderLine) == None
    ensures Trim(HeaderLine[25..31]) == "SEQ" && Trim(HeaderLine[33..38]) == "STAT"
  {
    var timeCol := AlignLeft("TIME", 23);
    var seqCol := AlignRight("SEQ", 6);
    var statCol := AlignRight("STAT", 5);
    var rest := "  " + AlignRight("LAT(ms)", 8) + "  ERROR";
    assert |timeCol| == 23 && |seqCol| == 6 && |statCol| == 5;
    assert HeaderLine == timeCol + "  " + seqCol + "  " + statCol + rest;
    assert timeCol[..5] == "TIME " by {
      assert timeCol[..4] == "TIME";
      assert timeCol[4] == timeCol[4..][0];
    }
    assert HeaderLine[..5] == timeCol[..5];
    assert HeaderLine[25..31] == seqCol;
    assert HeaderLine[33..38] == statCol;
    TitlesTrimmed();
    TrimAlignRight("SEQ", 6);
    TrimAlignRight("STAT", 5);
  }

  /** The closing line is neither coloured nor counted as progress. */
  lemma FinalLinePlain(sent: nat, elapsed: string)
    ensures DrainTag(FinalLine(sent, elapsed)) == None
    ensures ProgressCount(FinalLine(sent, elapsed)) == None
  {
    var line := FinalLine(sent, elapsed);
    assert line[0] == '\U{C885}';
    assert !StartsWith(line, "TIME ") by { assert "TIME "[0] == 'T'; }
  }

  /** A natural number of at least `10^(k-1)` has at least `k` decimal digits. */
  lemma {:induction false} NatToStringAtLeast(n: nat, k: nat)
    requires k >= 1 && n >= Pow10(k - 1)
    ensures |NatToString(n)| >= k
    decreases k
  {
    if k > 1 {
      NatToStringAtLeast(n / 10, k - 1);
    }
  }

  /** The same character ranges of a row whose second column is one character too wide. */
  lemma WideRowSlices(a: string, b: string, c: string, d: string, e: string)
    requires |a| == 23 && |b| == 7 && |c| == 5
    ensures var row := a + "  " + b + "  " + c + "  " + d + "  " + e;
      row[0] == a[0] && row[25..31] == b[..6] && row[33..38] == " " + c[..4]
  {
    var p1 := a + "  ";
    var p2 := p1 + b;
    var p3 := p2 + "  ";
    var p4 := p3 + c;
    RowHead(p4, d, e, 25, 31);
    RowHead(p4, d, e, 33, 38);
    RowHead(p4, d, e, 0, 1);
    SliceLeft(p3, c, 25, 31);
    SliceLeft(p2, "  ", 25, 31);
    assert p4[33..38] == " " + c[..4];
  }

  /**
   * From the millionth request on, the number no longer fits the SEQ column:
   * the progress label shows a tenth of the count, and the STAT column is read
   * one character off, so a 200 response loses its colour.
   */
  lemma SeqColumnOverflow(stamp: string, sent: nat, latency: string, error: Option<string>)
    requires |stamp| <= 23 && StartsWithDigit(stamp)
    requires 1000000 <= sent < 10000000
    ensures ProgressCount(FormatLine(stamp, sent, Tally.Code(200), latency, error)) == Some(sent / 10)
    ensures DrainTag(FormatLine(stamp, sent, Tally.Code(200), latency, error)) == None
    ensures KeyTag(Tally.Code(200)) == Some(OkTag)
  {
    WideLine(stamp, sent, latency, error);
    var line := FormatLine(stamp, sent, Tally.Code(200), latency, error);
    ProgressOfPrefix(line, sent / 10);
    StatOverflow(line);
  }

  /** The columns of a line for a 200 response whose number has seven digits. */
  lemma WideLine(stamp: string, sent: nat, latency: string, error: Option<string>)
    requires |stamp| <= 23 && StartsWithDigit(stamp)
    requires 1000000 <= sent < 10000000
    ensures var line := FormatLine(stamp, sent, Tally.Code(200), latency, error);
      && |line| >= 40 && StartsWithDigit(line)
      && line[25..31] == NatToString(sent / 10) && line[33..38] == " " + "  200"[..4]
  {
    var a, digits := AlignLeft(stamp, 23), NatToString(sent);
    var d, e := AlignRight(latency, 8), ErrorText(error);
    WideLineParts(stamp, sent, latency, error);
    SevenDigits(sent);
    WideRowSlices(a, digits, "  200", d, e);
    assert a[0] == stamp[0];
  }

  /** A line for a 200 response whose number has seven digits, field by field. */
  lemma WideLineParts(stamp: string, sent: nat, latency: string, error: Option<string>)
    requires 1000000 <= sent < 10000000
    ensures FormatLine(stamp, sent, Tally.Code(200), latency, error)
      == AlignLeft(stamp, 23) + "  " + NatToString(sent) + "  " + "  200" + "  " + AlignRight(latency, 8) + "  " + ErrorText(error)
  {
    SevenDigits(sent);
    Display200();
  }

  /** A 200 status is shown as "200", right-aligned in its five columns. */
  lemma Display200()
    ensures Tally.Display(Tally.Code(200)) == "200" && AlignRight("200", 5) == "  200"
  {
    assert NatToString(200) == "200";
  }

  lemma SevenDigits(n: nat)
    requires 1000000 <= n < 10000000
    ensures |NatToString(n)| == 7 && NatToString(n)[..6] == NatToString(n / 10)
    ensures AlignRight(IntToString(n), 6) == NatToString(n)
  {
    NatToStringLength(n / 10, 6);
    NatToStringAtLeast(n / 10, 6);
    var head := NatToString(n / 10);
    assert NatToString(n) == head + [DigitChar(n % 10)];
  }

  lemma ProgressOfPrefix(line: string, n: nat)
    requires |line| >= 31 && StartsWithDigit(line) && line[25..31] == NatToString(n)
    ensures ProgressCount(line) == Some(n)
  {
    TrimTrimmed(NatToString(n));
    ParseIntToString(n);
  }

  lemma StatOverflow(line: string)
    requires |line| >= 40 && StartsWithDigit(line) && line[33..38] == " " + "  200"[..4]
    ensures DrainTag(line) == None
  {
    assert !StartsWith(line, "TIME ") by { assert "TIME "[0] == 'T'; }
    assert line[33..38] == "   " + "20" + "";
    TrimPadded("   ", "20", "");
    ParseIntToString(20);
    assert NatToString(2) == "2";
    assert IntToString(20) == "20";
  }
}

=== FILE: probe.dfy ===
/**
 * The probe: once a second it launches one wave of `rps` requests, records
 * every request that completes (its status in the tally, its latency in the
 * accumulator, one line in the log), and then sleeps for what is left of the
 * second. The clock, the stop flag and the requests' results are inputs.
 */
module Probe {
  import opened Common
  import opened Text
  import opened Tally
  import Latency
  import LogLine
  import Summary

  /** What a request reports: its HTTP status, its latency and an error text, each possibly absent. */
  datatype Outcome = Outcome(status: Option<int>, latencyMs: Option<real>, error: Option<string>)

  /** How a request task ends: cancelled, with an outcome, or with an exception described by its type and message. */
  datatype Completion = Cancelled | Returned(outcome: Outcome) | Raised(description: string)

  /** A finished task, with the local time at which it was recorded. */
  datatype Finished = Finished(completion: Completion, stamp: string)

  /** The outcome recorded for a task that was not cancelled: an exception counts as an error with zero latency. */
  function OutcomeOf(c: Completion): (o: Outcome)
    requires !c.Cancelled?
    ensures c.Returned? ==> o == c.outcome
    ensures c.Raised? ==> KeyOf(o.status) == Err && o.latencyMs == Some(0.0) && o.error == Some(c.description)
  {
    match c
    case Returned(o) => o
    case Raised(d) => Outcome(None, Some(0.0), Some(d))
  }

  /** The latency column: the rendered latency (`render` formats with two decimals), or "-". */
  function LatencyText(latencyMs: Option<real>, render: real -> string): string
  {
    if latencyMs.Some? then render(latencyMs.value) else "-"
  }

  /**
   * The log line of a recorded task that was the `sent`-th request counted.
   * The log window reads back from it the number `sent` for the progress label
   * and the colour of the task's status key, as long as the timestamp starts
   * with a digit and fits its 23 columns, the number its six and the status its five.
   */
  function LineOf(f: Finished, sent: nat, render: real -> string): (line: string)
    requires !f.completion.Cancelled?
    ensures |line| >= 50
    ensures var key := KeyOf(OutcomeOf(f.completion).status);
      |f.stamp| <= 23 && LogLine.StartsWithDigit(f.stamp) && sent <= 999999 && |Display(key)| <= 5 ==>
        && LogLine.ProgressCount(line) == Some(sent)
        && LogLine.DrainTag(line) == LogLine.KeyTag(key)
  {
    var o := OutcomeOf(f.completion);
    var key := KeyOf(o.status);
    var lat := LatencyText(o.latencyMs, render);
    var line := LogLine.FormatLine(f.stamp, sent, key, lat, o.error);
    assert |f.stamp| <= 23 && LogLine.StartsWithDigit(f.stamp) && sent <= 999999 && |Display(key)| <= 5 ==>
      LogLine.ProgressCount(line) == Some(sent) && LogLine.DrainTag(line) == LogLine.KeyTag(key)
    by {
      if |f.stamp| <= 23 && LogLine.StartsWithDigit(f.stamp) && sent <= 999999 && |Display(key)| <= 5 {
        LogLine.ProgressRoundTrip(f.stamp, sent, key, lat, o.error);
        LogLine.TagRoundTrip(f.stamp, sent, key, lat, o.error);
      }
    }
    line
  }

  // ------------------------------------------------- what a run records

  /** The tally key of each request counted among `fs`: every task but the cancelled ones. */
  function KeysOf(fs: seq<Finished>): (keys: seq<StatusKey>)
    ensures |keys| <= |fs|
  {
    if fs == [] then []
    else if fs[0].completion.Cancelled? then KeysOf(fs[1..])
    else [KeyOf(OutcomeOf(fs[0].completion).status)] + KeysOf(fs[1..])
  }

  /** The latencies the accumulator receives: those of the counted requests that report one. */
  function SamplesOf(fs: seq<Finished>): (samples: seq<real>)
  {
    if fs == [] then []
    else if fs[0].completion.Cancelled? || OutcomeOf(fs[0].completion).latencyMs.None? then SamplesOf(fs[1..])
    else [OutcomeOf(fs[0].completion).latencyMs.value] + SamplesOf(fs[1..])
  }

  /** `line` applied to each counted request and its number, counting on from `before`. */
  function Numbered(fs: seq<Finished>, before: nat, line: (Finished, nat) -> string): (lines: seq<string>)
  {
    if fs == [] then []
    else if fs[0].completion.Cancelled? then Numbered(fs[1..], before, line)
    else [line(fs[0], before + 1)] + Numbered(fs[1..], before + 1, line)
  }

  /** `LineOf` as a function value: the probe's log format; a cancelled task has no line. */
  function LineMaker(render: real -> string): (Finished, nat) -> string
  {
    (f: Finished, n: nat) => if f.completion.Cancelled? then [] else LineOf(f, n, render)
  }

  /** A counted task's line from `LineMaker` is its `LineOf`. */
  lemma LineMakerOf(render: real -> string, f: Finished, n: nat)
    requires !f.completion.Cancelled?
    ensures LineMaker(render)(f, n) == LineOf(f, n, render)
  {
  }

  /** The tasks among `fs` that count as requests: all but the cancelled ones. */
  function CountedOf(fs: seq<Finished>): (counted: seq<Finished>)
    ensures forall i :: 0 <= i < |counted| ==> !counted[i].completion.Cancelled?
  {
    if fs == [] then []
    else if fs[0].completion.Cancelled? then CountedOf(fs[1..])
    else [fs[0]] + CountedOf(fs[1..])
  }

  lemma {:induction false} KeysConcat(a: seq<Finished>, b: seq<Finished>)
    ensures KeysOf(a + b) == KeysOf(a) + KeysOf(b)
  {
    if a == [] {
      assert a + b == b;
    } else {
      assert (a + b)[1..] == a[1..] + b;
      KeysConcat(a[1..], b);
    }
  }

  lemma {:induction false} SamplesConcat(a: seq<Finished>, b: seq<Finished>)
    ensures SamplesOf(a + b) == SamplesOf(a) + SamplesOf(b)
  {
    if a == [] {
      assert a + b == b;
    } else {
      assert (a + b)[1..] == a[1..] + b;
      SamplesConcat(a[1..], b);
    }
  }

  lemma {:induction false} NumberedConcat(a: seq<Finished>, b: seq<Finished>, before: nat, line: (Finished, nat) -> string)
    ensures Numbered(a + b, before, line) == Numbered(a, before, line) + Numbered(b, before + |KeysOf(a)|, line)
  {
    if a == [] {
      assert a + b == b;
    } else {
      var rest := a[1..];
      assert (a + b)[0] == a[0] && (a + b)[1..] == rest + b;
      if a[0].completion.Cancelled? {
        NumberedConcat(rest, b, before, line);
        assert Numbered(a + b, before, line) == Numbered(rest + b, before, line);
        assert KeysOf(a) == KeysOf(rest);
      } else {
        NumberedConcat(rest, b, before + 1, line);
        assert Numbered(a + b, before, line) == [line(a[0], before + 1)] + Numbered(rest + b, before + 1, line);
        assert |KeysOf(a)| == 1 + |KeysOf(rest)|;
      }
    }
  }

  /** The `i`-th tally key of a run of tasks is the key of its `i`-th counted request. */
  lemma {:induction false} CountedKeys(fs: seq<Finished>)
    ensures |CountedOf(fs)| == |KeysOf(fs)|
    ensures forall i :: 0 <= i < |KeysOf(fs)| ==> KeysOf(fs)[i] == KeyOf(OutcomeOf(CountedOf(fs)[i].completion).status)
  {
    if fs != [] {
      CountedKeys(fs[1..]);
    }
  }

  /**
   * Numbering: the `i`-th line of a run of tasks is `line` applied to the
   * `i`-th counted request and the number `before + i + 1`.
   */
  lemma {:induction false} NumberedIndex(fs: seq<Finished>, before: nat, line: (Finished, nat) -> string)
    ensures |Numbered(fs, before, line)| == |CountedOf(fs)|
    ensures forall i :: 0 <= i < |CountedOf(fs)| ==> Numbered(fs, before, line)[i] == line(CountedOf(fs)[i], before + i + 1)
  {
    if fs != [] {
      if fs[0].completion.Cancelled? {
        NumberedIndex(fs[1..], before, line);
        assert Numbered(fs, before, line) == Numbered(fs[1..], before, line);
        assert CountedOf(fs) == CountedOf(fs[1..]);
      } else {
        NumberedIndex(fs[1..], before + 1, line);
        NumberedCons(fs, before, line);
      }
    }
  }

  /** `NumberedIndex` for a run that starts with a counted task, given it for the rest. */
  lemma NumberedCons(fs: seq<Finished>, before: nat, line: (Finished, nat) -> string)
    requires fs != [] && !fs[0].completion.Cancelled?
    requires |Numbered(fs[1..], before + 1, line)| == |CountedOf(fs[1..])|
    requires forall i :: 0 <= i < |CountedOf(fs[1..])| ==>
      Numbered(fs[1..], before + 1, line)[i] == line(CountedOf(fs[1..])[i], before + 1 + i + 1)
    ensures |Numbered(fs, before, line)| == |CountedOf(fs)|
    ensures forall i :: 0 <= i < |CountedOf(fs)| ==> Numbered(fs, before, line)[i] == line(CountedOf(fs)[i], before + i + 1)
  {
    var rest, restCounted := Numbered(fs[1..], before + 1, line), CountedOf(fs[1..]);
    var lines, counted := [line(fs[0], before + 1)] + rest, [fs[0]] + restCounted;
    assert Numbered(fs, before, line) == lines;
    assert CountedOf(fs) == counted;
    forall i | 0 <= i < |counted|
      ensures lines[i] == line(counted[i], before + i + 1)
    {
      if i > 0 {
        assert lines[i] == rest[i - 1] && counted[i] == restCounted[i - 1];
      }
    }
  }

  /** Every counted request is one of the tasks. */
  lemma {:induction false} CountedIn(fs: seq<Finished>, i: nat)
    requires i < |CountedOf(fs)|
    ensures CountedOf(fs)[i] in fs
  {
    if fs[0].completion.Cancelled? {
      CountedIn(fs[1..], i);
    } else if i > 0 {
      CountedIn(fs[1..], i - 1);
    }
  }

  /**
   * Reading the log back: the `i`-th request line of a run shows `i + 1` in
   * the progress label and the colour of the `i`-th status key, as long as
   * the counter fits its six columns, the statuses their five, and every
   * timestamp starts with a digit and fits its 23.
   */
  lemma LogReadBack(fs: seq<Finished>, render: real -> string, i: nat)
    requires i < |KeysOf(fs)| <= 999999
    requires forall f :: f in fs ==> |f.stamp| <= 23 && LogLine.StartsWithDigit(f.stamp)
    requires forall k :: k in KeysOf(fs) ==> |Display(k)| <= 5
    ensures |Numbered(fs, 0, LineMaker(render))| == |KeysOf(fs)|
    ensures LogLine.ProgressCount(Numbered(fs, 0, LineMaker(render))[i]) == Some(i + 1)
    ensures LogLine.DrainTag(Numbered(fs, 0, LineMaker(render))[i]) == LogLine.KeyTag(KeysOf(fs)[i])
  {
    NumberedIndex(fs, 0, LineMaker(render));
    CountedKeys(fs);
    var f := CountedOf(fs)[i];
    CountedIn(fs, i);
    var o := OutcomeOf(f.completion);
    var key := KeysOf(fs)[i];
    assert key == KeyOf(o.status);
    LineMakerOf(render, f, i + 1);
  }

  /** A task that, if counted, hands the accumulator a latency: `fetch` always measures one. */
  predicate ReportsLatency(f: Finished) {
    f.completion.Cancelled? || OutcomeOf(f.completion).latencyMs.Some?
  }

  /** When every counted request reports a latency, there are as many samples as requests. */
  lemma {:induction false} SamplesMatchKeys(fs: seq<Finished>)
    requires forall i :: 0 <= i < |fs| ==> ReportsLatency(fs[i])
    ensures |SamplesOf(fs)| == |KeysOf(fs)|
  {
    if fs != [] {
      assert forall i :: 0 <= i < |fs[1..]| ==> fs[1..][i] == fs[i + 1];
      SamplesMatchKeys(fs[1..]);
    }
  }

  /** What taking one more task adds to each record of the tasks taken before it. */
  lemma TakeOne(done: seq<Finished>, f: Finished, line: (Finished, nat) -> string)
    ensures f.completion.Cancelled? ==>
      && KeysOf(done + [f]) == KeysOf(done)
      && SamplesOf(done + [f]) == SamplesOf(done)
      && Numbered(done + [f], 0, line) == Numbered(done, 0, line)
    ensures !f.completion.Cancelled? ==>
      var o := OutcomeOf(f.completion);
      && KeysOf(done + [f]) == KeysOf(done) + [KeyOf(o.status)]
      && SamplesOf(done + [f]) == SamplesOf(done) + (if o.latencyMs.Some? then [o.latencyMs.value] else [])
      && Numbered(done + [f], 0, line) == Numbered(done, 0, line) + [line(f, |KeysOf(done)| + 1)]
  {
    KeysConcat(done, [f]);
    SamplesConcat(done, [f]);
    NumberedConcat(done, [f], 0, line);
    assert [f][1..] == [];
    assert KeysOf([f][1..]) == [] && SamplesOf([f][1..]) == [];
    assert Numbered([], |KeysOf(done)|, line) == [];
    assert Numbered([], |KeysOf(done)| + 1, line) == [];
  }

  /** Counting one more key into a tally. */
  lemma TallyStep(keys: seq<StatusKey>, k: StatusKey)
    ensures TallyOf(keys + [k]) == Increment(TallyOf(keys), k)
  {
    var ks := keys + [k];
    assert ks[..|ks| - 1] == keys;
  }

  /** The records of tasks taken after `done`, relative to those of `done`. */
  lemma Records(done: seq<Finished>, fs: seq<Finished>, line: (Finished, nat) -> string)
    ensures |KeysOf(done + fs)| == |KeysOf(done)| + |KeysOf(fs)|
    ensures SamplesOf(done + fs) == SamplesOf(done) + SamplesOf(fs)
    ensures Numbered(done + fs, 0, line) == Numbered(done, 0, line) + Numbered(fs, |KeysOf(done)|, line)
  {
    KeysConcat(done, fs);
    assert |KeysOf(done + fs)| == |KeysOf(done)| + |KeysOf(fs)|;
    SamplesConcat(done, fs);
    NumberedConcat(done, fs, 0, line);
  }

  /** Appending two pieces one after the other appends their concatenation. */
  lemma Extend<T>(base: seq<T>, a: seq<T>, b: seq<T>, ab: seq<T>)
    requires ab == a + b
    ensures base + a + b == base + ab
  {
  }

  // ------------------------------------------------------------ the waves

  /**
   * One pass of the probe's loop as the environment plays it: the seconds since
   * the start and the stop flag when the loop condition is tested, the tasks of
   * the wave in the order they finish, the seconds the wave took until its last
   * task was recorded, and the stop flag when the sleep is decided.
   */
  datatype Wave = Wave(now: real, stopAtStart: bool, finished: seq<Finished>, elapsed: real, stopAtSleep: bool)

  /** The loop condition: time is left and no stop was requested. */
  predicate Launches(w: Wave, durationS: int)
    ensures w.stopAtStart ==> !Launches(w, durationS)
    ensures w.now >= 0.0 && durationS <= 0 ==> !Launches(w, durationS)
  {
    w.now < durationS as real && !w.stopAtStart
  }

  /** The number of waves launched: up to the first one whose loop test fails. */
  function WavesRun(waves: seq<Wave>, durationS: int): (n: nat)
    ensures n <= |waves|
    ensures forall i :: 0 <= i < n ==> Launches(waves[i], durationS)
    ensures n < |waves| ==> !Launches(waves[n], durationS)
  {
    if waves == [] || !Launches(waves[0], durationS) then 0
    else 1 + WavesRun(waves[1..], durationS)
  }

  /** No wave is launched once a loop test has failed: after a stop request or once the duration is up. */
  lemma NoWaveAfterStop(waves: seq<Wave>, durationS: int, i: nat)
    requires i < |waves| && (waves[i].stopAtStart || waves[i].now >= durationS as real)
    ensures WavesRun(waves, durationS) <= i
  {
  }

  /** Below the number of waves run, a wave is run exactly when it launches. */
  lemma NextLaunch(waves: seq<Wave>, durationS: int, i: nat)
    requires i <= WavesRun(waves, durationS)
    ensures i < WavesRun(waves, durationS) <==> i < |waves| && Launches(waves[i], durationS)
  {
  }

  /**
   * The pause after a wave: what is left of its second, and none once a stop
   * is requested. Pacing: a wave that was not stopped takes at least a second
   * with its pause, exactly one when it finished early, and a slow wave is not
   * made up for by shortening a later one; the pause is never longer than a second.
   */
  function SleepOf(w: Wave): (pause: real)
    ensures pause >= 0.0
    ensures w.elapsed >= 0.0 ==> pause <= 1.0
    ensures w.stopAtSleep ==> pause == 0.0
    ensures !w.stopAtSleep ==> w.elapsed + pause == (if w.elapsed < 1.0 then 1.0 else w.elapsed)
  {
    var toSleep := 1.0 - w.elapsed;
    if toSleep > 0.0 && !w.stopAtSleep then toSleep else 0.0
  }

  /** The pause after each of `waves`. */
  function SleepPlan(waves: seq<Wave>): (sleeps: seq<real>)
    ensures |sleeps| == |waves|
  {
    seq(|waves|, i requires 0 <= i < |waves| => SleepOf(waves[i]))
  }

  /** Every task of `waves`, wave after wave. */
  function AllFinished(waves: seq<Wave>): seq<Finished>
  {
    if waves == [] then [] else AllFinished(waves[..|waves| - 1]) + waves[|waves| - 1].finished
  }

  /** Taking one more wave. */
  lemma WaveStep(waves: seq<Wave>, i: nat)
    requires i < |waves|
    ensures AllFinished(waves[..i + 1]) == AllFinished(waves[..i]) + waves[i].finished
    ensures SleepPlan(waves[..i + 1]) == SleepPlan(waves[..i]) + [SleepOf(waves[i])]
  {
    assert waves[..i + 1][..i] == waves[..i];
  }

  /**
   * What the loop can observe of a clock and of the stop flag: time does not
   * run backwards and every wave lasts at least its own duration and pause;
   * the flag, once set, stays set; durations are not negative.
   */
  predicate Coherent(waves: seq<Wave>) {
    && (forall i :: 0 <= i < |waves| ==> waves[i].now >= 0.0 && waves[i].elapsed >= 0.0)
    && (forall i :: 0 <= i < |waves| - 1 ==>
          && waves[i + 1].now >= waves[i].now + waves[i].elapsed + SleepOf(waves[i])
          && (waves[i].stopAtSleep ==> waves[i + 1].stopAtStart))
  }

  /** Wave `i` of a coherent run starts no earlier than `i` seconds after the start. */
  lemma {:induction false} StartsAfter(waves: seq<Wave>, durationS: int, i: nat)
    requires Coherent(waves) && i < WavesRun(waves, durationS)
    ensures waves[i].now >= i as real
  {
    if i > 0 {
      StartsAfter(waves, durationS, i - 1);
      var w := waves[i - 1];
      assert !w.stopAtSleep by {
        assert Launches(waves[i], durationS);
      }
    }
  }

  /** However the clock behaves, a run of `durationS` seconds launches at most `durationS` waves. */
  lemma AtMostDuration(waves: seq<Wave>, durationS: int)
    requires Coherent(waves)
    ensures WavesRun(waves, durationS) <= (if durationS < 0 then 0 else durationS)
  {
    var n := WavesRun(waves, durationS);
    if n > 0 {
      StartsAfter(waves, durationS, n - 1);
      assert Launches(waves[n - 1], durationS);
    }
  }

  /** The number of tasks `range(rps)` launches in a wave: none for a rate below one. */
  function Launched(rps: int): (n: nat)
    ensures rps > 0 ==> n == rps
    ensures rps <= 0 ==> n == 0
  {
    if rps > 0 then rps else 0
  }

  /**
   * A clock with no drift: it reads 0 at the first loop test and, at each
   * later one, exactly the previous reading plus the previous wave's duration
   * and pause; every wave is done within its second and no stop is requested.
   */
  predicate Punctual(waves: seq<Wave>) {
    && |waves| > 0 && waves[0].now == 0.0
    && (forall i :: 0 <= i < |waves| ==>
          0.0 <= waves[i].elapsed <= 1.0 && !waves[i].stopAtStart && !waves[i].stopAtSleep)
    && (forall i :: 0 <= i < |waves| - 1 ==> waves[i + 1].now == waves[i].now + waves[i].elapsed + SleepOf(waves[i]))
  }

  /** On a punctual clock, wave `i` starts exactly `i` seconds after the start. */
  lemma {:induction false} PunctualClock(waves: seq<Wave>, i: nat)
    requires Punctual(waves) && i < |waves|
    ensures waves[i].now == i as real
  {
    if i > 0 {
      PunctualClock(waves, i - 1);
      assert waves[i].now == waves[i - 1].now + waves[i - 1].elapsed + SleepOf(waves[i - 1]);
    }
  }

  /** A punctual clock is one the loop can observe. */
  lemma PunctualCoherent(waves: seq<Wave>)
    requires Punctual(waves)
    ensures Coherent(waves)
  {
    forall i | 0 <= i < |waves|
      ensures waves[i].now >= 0.0
    {
      PunctualClock(waves, i);
    }
  }

  /**
   * On a punctual clock that goes on past the end of the run, a run of
   * `durationS` seconds launches exactly `durationS` waves.
   */
  lemma IdealClock(waves: seq<Wave>, durationS: nat)
    requires Punctual(waves) && |waves| > durationS
    ensures WavesRun(waves, durationS) == durationS
  {
    PunctualClock(waves, durationS);
    PunctualClock(waves, WavesRun(waves, durationS));
  }

  /** No task among `fs` was cancelled. */
  predicate NoneCancelled(fs: seq<Finished>) {
    forall i :: 0 <= i < |fs| ==> !fs[i].completion.Cancelled?
  }

  /** Without cancellations every task counts as a request. */
  lemma {:induction false} KeysUncancelled(fs: seq<Finished>)
    requires NoneCancelled(fs)
    ensures |KeysOf(fs)| == |fs|
  {
    if fs != [] {
      assert forall i :: 0 <= i < |fs[1..]| ==> fs[1..][i] == fs[i + 1];
      KeysUncancelled(fs[1..]);
    }
  }

  /**
   * Each wave launches `rps` tasks, so a run counts at most `rps` requests per
   * wave, and exactly that many when no task is cancelled.
   */
  lemma {:induction false} SentPerWave(waves: seq<Wave>, rps: nat)
    requires forall i :: 0 <= i < |waves| ==> |waves[i].finished| == rps
    ensures |AllFinished(waves)| == rps * |waves|
    ensures |KeysOf(AllFinished(waves))| <= rps * |waves|
    ensures NoneCancelled(AllFinished(waves)) ==> |KeysOf(AllFinished(waves))| == rps * |waves|
  {
    if waves != [] {
      var n := |waves| - 1;
      SentPerWave(waves[..n], rps);
      assert |AllFinished(waves)| == rps * n + rps;
    }
    if NoneCancelled(AllFinished(waves)) {
      KeysUncancelled(AllFinished(waves));
    }
  }

  /**
   * A run of `durationS` seconds at `rps` requests a second on a punctual
   * clock, with no task cancelled, counts `rps * durationS` requests.
   */
  lemma PunctualRunSends(waves: seq<Wave>, durationS: nat, rps: int)
    requires Punctual(waves) && |waves| > durationS
    requires forall i :: 0 <= i < |waves| ==> |waves[i].finished| == Launched(rps)
    requires NoneCancelled(AllFinished(waves[..durationS]))
    ensures WavesRun(waves, durationS) == durationS
    ensures |KeysOf(AllFinished(waves[..WavesRun(waves, durationS)]))| == Launched(rps) * durationS
  {
    IdealClock(waves, durationS);
    SentPerWave(waves[..durationS], Launched(rps));
  }

  // ------------------------------------------------------------ the probe

  /** The state `run_probe` keeps while it runs. */
  class Probe {
    /** How a latency is shown in the log, with two decimals. */
    const render: real -> string
    /** The log line of a counted request and its number. */
    const line: (Finished, nat) -> string
    var sent: nat
    var statusCounts: map<StatusKey, nat>
    var latencies: Latency.LatencyStats
    /** The lines put on the log queue, in order. */
    var log: seq<string>
    /** Every task the probe has taken a result from, in order, cancelled ones included. */
    ghost var taken: seq<Finished>

    /** The counter, the tally and the accumulator describe the requests among `taken`. */
    ghost predicate Counted()
      reads this, latencies
    {
      && latencies.Valid()
      && latencies.samples == SamplesOf(taken)
      && sent == |KeysOf(taken)|
      && statusCounts == TallyOf(KeysOf(taken))
    }

    /** ... and the log holds one line per counted request, numbered from 1. */
    ghost predicate Valid()
      reads this, latencies
    {
      Counted() && log == Numbered(taken, 0, line)
    }

    constructor (render: real -> string)
      ensures Valid() && fresh(latencies)
      ensures this.render == render && line == LineMaker(render)
      ensures taken == [] && sent == 0 && statusCounts == map[] && log == []
    {
      this.render := render;
      line := LineMaker(render);
      sent := 0;
      statusCounts := map[];
      latencies := new Latency.LatencyStats();
      log := [];
      taken := [];
    }

    /**
     * The tally adds up to the number of requests counted, and so does the
     * accumulator's count when every counted request reported a latency.
     */
    lemma CountsAddUp()
      requires Counted()
      ensures Total(statusCounts) == sent
      ensures (forall i :: 0 <= i < |taken| ==> ReportsLatency(taken[i])) ==> latencies.count == sent
    {
      TallyOfTotal(KeysOf(taken));
      if forall i :: 0 <= i < |taken| ==> ReportsLatency(taken[i]) {
        SamplesMatchKeys(taken);
      }
    }

    /**
     * Records one finished task: a cancelled one is skipped; otherwise the
     * request counter goes up, the latency (if any) is added, the status key
     * is counted and the request's line, with its number, is logged.
     */
    method Process(f: Finished)
      requires Valid()
      modifies this, latencies
      ensures Valid() && latencies == old(latencies)
      ensures taken == old(taken) + [f]
      ensures f.completion.Cancelled? ==>
        && sent == old(sent) && statusCounts == old(statusCounts) && log == old(log)
        && latencies.samples == old(latencies.samples)
      ensures !f.completion.Cancelled? ==>
        var o := OutcomeOf(f.completion);
        && sent == old(sent) + 1
        && statusCounts == Increment(old(statusCounts), KeyOf(o.status))
        && log == old(log) + [line(f, sent)]
        && latencies.samples == old(latencies.samples) + (if o.latencyMs.Some? then [o.latencyMs.value] else [])
    {
      TakeOne(taken, f, line);
      if f.completion.Cancelled? {
        taken := taken + [f];
        return;
      }
      var o := OutcomeOf(f.completion);
      var key := KeyOf(o.status);
      TallyStep(KeysOf(taken), key);
      sent := sent + 1;
      if o.latencyMs.Some? {
        latencies.Add(o.latencyMs.value);
      }
      statusCounts := Increment(statusCounts, key);
      log := log + [line(f, sent)];
      taken := taken + [f];
    }

    /** The inner loop of one wave: records the wave's tasks in the order they finish. */
    method ProcessWave(fs: seq<Finished>)
      requires Valid()
      modifies this, latencies
      ensures Valid() && latencies == old(latencies)
      ensures taken == old(taken) + fs
      ensures sent == old(sent) + |KeysOf(fs)|
      ensures latencies.samples == old(latencies.samples) + SamplesOf(fs)
      ensures log == old(log) + Numbered(fs, old(sent), line)
    {
      var j := 0;
      while j < |fs|
        invariant j <= |fs|
        invariant Valid() && latencies == old(latencies)
        invariant taken == old(taken) + fs[..j]
      {
        Process(fs[j]);
        assert fs[..j + 1] == fs[..j] + [fs[j]];
        Extend(old(taken), fs[..j], [fs[j]], fs[..j + 1]);
        j := j + 1;
      }
      assert fs[..j] == fs;
      Records(old(taken), fs, line);
    }

    /**
     * `run_probe`'s loop: while time is left and no stop was requested,
     * launch a wave of requests, record each task as it finishes, then pause
     * for what is left of the second unless a stop was requested; finally log
     * the closing line with the elapsed time `totalS` and return the summary.
     */
    method Run(rps: int, durationS: int, waves: seq<Wave>, totalS: real, startedAt: string)
      returns (wavesRun: nat, sleeps: seq<real>, summary: Summary.RunSummary)
      requires Valid()
      requires forall i :: 0 <= i < |waves| ==> |waves[i].finished| == Launched(rps)
      modifies this, latencies
      ensures Counted() && latencies == old(latencies)
      ensures wavesRun == WavesRun(waves, durationS)
      ensures |taken| == |old(taken)| + Launched(rps) * wavesRun
      ensures sent <= old(sent) + Launched(rps) * wavesRun
      ensures NoneCancelled(AllFinished(waves[..wavesRun])) ==> sent == old(sent) + Launched(rps) * wavesRun
      ensures sleeps == SleepPlan(waves[..wavesRun])
      ensures taken == old(taken) + AllFinished(waves[..wavesRun])
      ensures log == Numbered(taken, 0, line) + [LogLine.FinalLine(sent, render(totalS))]
      ensures summary == Summary.RunSummary(sent, statusCounts, totalS, latencies, startedAt)
    {
      wavesRun, sleeps := 0, [];
      while wavesRun < |waves| && Launches(waves[wavesRun], durationS)
        invariant wavesRun <= WavesRun(waves, durationS)
        invariant Valid() && latencies == old(latencies)
        invariant sleeps == SleepPlan(waves[..wavesRun])
        invariant taken == old(taken) + AllFinished(waves[..wavesRun])
      {
        var wave := waves[wavesRun];
        NextLaunch(waves, durationS, wavesRun);
        WaveStep(waves, wavesRun);
        ProcessWave(wave.finished);
        Extend(old(taken), AllFinished(waves[..wavesRun]), wave.finished, AllFinished(waves[..wavesRun + 1]));
        sleeps := sleeps + [SleepOf(wave)];
        wavesRun := wavesRun + 1;
      }
      NextLaunch(waves, durationS, wavesRun);
      SentPerWave(waves[..wavesRun], Launched(rps));
      KeysConcat(old(taken), AllFinished(waves[..wavesRun]));
      log := log + [LogLine.FinalLine(sent, render(totalS))];
      summary := Summary.RunSummary(sent, statusCounts, totalS, latencies, startedAt);
    }
  }
}

=== FILE: summary.dfy ===
/**
 * The result of a run and the record a result file stores for it.
 */
module Summary {
  import opened Common
  import Tally
  import Latency

  /** What a run reports when it ends. */
  datatype RunSummary = RunSummary(
    totalSent: nat,
    statusCounts: map<Tally.StatusKey, nat>,
    elapsedS: real,
    latencies: Latency.LatencyStats,
    startedAt: string)

  /** The "latency" entry: only a zero count when no latency was recorded. */
  datatype LatencyBlock = CountOnly | Figures(count: nat, averageMs: real, minMs: real, maxMs: real)

  /** The record `RunSummary.to_dict` produces. */
  datatype SummaryRecord = SummaryRecord(
    totalSent: nat,
    elapsedS: real,
    statusCounts: map<string, nat>,
    startedAt: string,
    latency: LatencyBlock)

  /** `str` is one-to-one on status keys. */
  lemma DisplaysDistinct()
    ensures forall j: Tally.StatusKey, k: Tally.StatusKey :: Tally.Display(j) == Tally.Display(k) ==> j == k
  {
    forall j: Tally.StatusKey, k: Tally.StatusKey | Tally.Display(j) == Tally.Display(k) {
      Tally.DisplayInjective(j, k);
    }
  }

  /** The status counts keyed by their displayed form, as the record stores them. */
  function DisplayKeyed(counts: map<Tally.StatusKey, nat>): map<string, nat>
  {
    DisplaysDistinct();
    map k | k in counts :: Tally.Display(k) := counts[k]
  }

  /** Keying the counts by their display loses nothing: every count is found under its key's display, and nothing else is there. */
  lemma DisplayKeyedLossless(counts: map<Tally.StatusKey, nat>)
    ensures forall k :: k in counts <==> Tally.Display(k) in DisplayKeyed(counts)
    ensures forall k :: k in counts ==> DisplayKeyed(counts)[Tally.Display(k)] == counts[k]
    ensures forall name :: name in DisplayKeyed(counts) ==>
      Tally.ParseKey(name).Some? && Tally.ParseKey(name).value in counts
  {
    DisplaysDistinct();
    forall k | k in counts {
      Tally.ParseDisplay(k);
    }
  }

  /**
   * `to_dict`: the latency entry holds the count, average, minimum and maximum
   * when any latency was recorded and only a zero count otherwise; the start
   * time is marked as UTC.
   */
  function ToRecord(s: RunSummary): (r: SummaryRecord)
    reads s.latencies
    ensures r.latency.CountOnly? <==> s.latencies.count == 0
  {
    var stats := s.latencies;
    var block :=
      if stats.count == 0 then CountOnly
      else Figures(
        stats.count,
        if stats.Mean().Some? then stats.Mean().value else 0.0,
        if stats.minMs.Some? then stats.minMs.value else 0.0,
        if stats.maxMs.Some? then stats.maxMs.value else 0.0);
    SummaryRecord(s.totalSent, s.elapsedS, DisplayKeyed(s.statusCounts), s.startedAt + "Z", block)
  }

  /**
   * In the record of a consistent summary, the average latency is the mean of
   * the samples and lies between their minimum and maximum.
   */
  lemma RecordAverageBetween(s: RunSummary)
    requires s.latencies.Valid() && s.latencies.count > 0
    ensures var b := ToRecord(s).latency;
      b.Figures? && b.count == |s.latencies.samples|
      && b.averageMs == Latency.Sum(s.latencies.samples) / |s.latencies.samples| as real
      && b.minMs <= b.averageMs <= b.maxMs
      && b.minMs == Latency.Least(s.latencies.samples).value
      && b.maxMs == Latency.Greatest(s.latencies.samples).value
  {
    s.latencies.Bounds();
  }
}

=== FILE: tally.dfy ===
/**
 * The status tally: how many completed requests ended with each status key,
 * a numeric HTTP status or the transport-error marker "ERR", and the figures
 * the summary window derives from it.
 */
module Tally {
  import opened Common
  import opened Text

  /** A tally key: the HTTP status of a response, or `Err` for a request that got none. */
  datatype StatusKey = Code(code: int) | Err

  /** The key a request outcome is counted under: `Err` exactly when there is no status. */
  function KeyOf(status: Option<int>): (k: StatusKey)
    ensures k == Err <==> status.None?
    ensures status.Some? ==> k == Code(status.value)
  {
    match status
    case None => Err
    case Some(c) => Code(c)
  }

  /** `str(status_key)`: how a key is shown in the log and in exported summaries. */
  function Display(k: StatusKey): (d: string)
    ensures d != [] && IsTrimmed(d)
    ensures k.Code? ==> ParseInt(d) == Some(k.code)
  {
    match k
    case Err => "ERR"
    case Code(c) => ParseIntToString(c); IntToString(c)
  }

  /** Reads a displayed key back. */
  function ParseKey(s: string): Option<StatusKey>
  {
    if s == "ERR" then Some(Err)
    else match ParseInt(s)
      case Some(c) => Some(Code(c))
      case None => None
  }

  /** Reading a displayed key gives the key back, so no two keys share a display. */
  lemma ParseDisplay(k: StatusKey)
    ensures ParseKey(Display(k)) == Some(k)
  {
    if k.Code? {
      var s := IntToString(k.code);
      assert s[0] == '-' || IsDigit(s[0]);
      assert s != "ERR" by { assert "ERR"[0] == 'E'; }
    }
  }

  lemma DisplayInjective(j: StatusKey, k: StatusKey)
    requires Display(j) == Display(k)
    ensures j == k
  {
    ParseDisplay(j);
    ParseDisplay(k);
  }

  // ----------------------------------------------------------- the Counter

  /** `status_counts[key] += 1` on a `Counter`: a missing key counts as zero. */
  function Increment(tally: map<StatusKey, nat>, k: StatusKey): (r: map<StatusKey, nat>)
    ensures r.Keys == tally.Keys + {k}
    ensures r[k] == (if k in tally then tally[k] else 0) + 1
    ensures forall j :: j in tally && j != k ==> r[j] == tally[j]
  {
    tally[k := (if k in tally then tally[k] else 0) + 1]
  }

  /** The sum of all counts in a tally. */
  ghost function Total(tally: map<StatusKey, nat>): nat
    decreases |tally|
  {
    if tally == map[] then 0
    else
      var k :| k in tally;
      tally[k] + Total(tally - {k})
  }

  /** The total does not depend on which key is taken out first. */
  lemma {:induction false} TotalRemove(tally: map<StatusKey, nat>, k: StatusKey)
    requires k in tally
    ensures Total(tally) == tally[k] + Total(tally - {k})
    decreases |tally|
  {
    var j :| j in tally && Total(tally) == tally[j] + Total(tally - {j});
    if j != k {
      var rest := tally - {j};
      TotalRemove(rest, k);
      TotalRemove(tally - {k}, j);
      assert rest - {k} == (tally - {k}) - {j};
    }
  }

  /** Each increment adds exactly one to the total. */
  lemma IncrementTotal(tally: map<StatusKey, nat>, k: StatusKey)
    ensures Total(Increment(tally, k)) == Total(tally) + 1
  {
    var t := Increment(tally, k);
    TotalRemove(t, k);
    assert t - {k} == tally - {k};
    if k in tally {
      TotalRemove(tally, k);
    } else {
      assert tally - {k} == tally;
    }
  }

  /** The tally after counting `keys` one by one into an empty `Counter`. */
  function TallyOf(keys: seq<StatusKey>): map<StatusKey, nat>
  {
    if keys == [] then map[] else Increment(TallyOf(keys[..|keys| - 1]), keys[|keys| - 1])
  }

  /** How often `k` occurs in `keys`. */
  function Occurrences(keys: seq<StatusKey>, k: StatusKey): nat
  {
    if keys == [] then 0
    else Occurrences(keys[..|keys| - 1], k) + (if keys[|keys| - 1] == k then 1 else 0)
  }

  /** A tally holds exactly the keys seen, each with the number of times it was seen. */
  lemma {:induction false} TallyOfCounts(keys: seq<StatusKey>, k: StatusKey)
    ensures k in TallyOf(keys) <==> k in keys
    ensures k in TallyOf(keys) ==> TallyOf(keys)[k] == Occurrences(keys, k)
    ensures k !in TallyOf(keys) ==> Occurrences(keys, k) == 0
  {
    if keys != [] {
      var init := keys[..|keys| - 1];
      assert keys == init + [keys[|keys| - 1]];
      TallyOfCounts(init, k);
    }
  }

  /** The counts of a tally add up to the number of keys counted into it. */
  lemma {:induction false} TallyOfTotal(keys: seq<StatusKey>)
    ensures Total(TallyOf(keys)) == |keys|
  {
    if keys != [] {
      TallyOfTotal(keys[..|keys| - 1]);
      IncrementTotal(TallyOf(keys[..|keys| - 1]), keys[|keys| - 1]);
    }
  }

  // ------------------------------------------------------- summary figures

  /** The part of a tally whose keys satisfy `p`. */
  function Restrict(tally: map<StatusKey, nat>, p: StatusKey -> bool): map<StatusKey, nat>
  {
    map k | k in tally && p(k) :: tally[k]
  }

  /** Splitting a tally by a test and its complement splits its total. */
  lemma {:induction false} TotalSplit(tally: map<StatusKey, nat>, p: StatusKey -> bool, q: StatusKey -> bool)
    requires forall k :: q(k) == !p(k)
    ensures Total(tally) == Total(Restrict(tally, p)) + Total(Restrict(tally, q))
    decreases |tally|
  {
    if tally != map[] {
      var k :| k in tally;
      var rest := tally - {k};
      TotalSplit(rest, p, q);
      TotalRemove(tally, k);
      if p(k) {
        TotalRemove(Restrict(tally, p), k);
        assert Restrict(tally, p) - {k} == Restrict(rest, p);
        assert Restrict(tally, q) == Restrict(rest, q);
      } else {
        TotalRemove(Restrict(tally, q), k);
        assert Restrict(tally, q) - {k} == Restrict(rest, q);
        assert Restrict(tally, p) == Restrict(rest, p);
      }
    } else {
      assert Restrict(tally, p) == map[];
      assert Restrict(tally, q) == map[];
    }
  }

  predicate IsSuccess(k: StatusKey) {
    k.Code? && 200 <= k.code < 300
  }

  /** What the summary window counts as "other failures": any other status from 400 up, and ERR. */
  predicate IsOtherFailure(k: StatusKey) {
    k == Err || (k.Code? && k.code >= 400 && k.code != 429)
  }

  /** The figures of the summary window. */
  datatype Breakdown = Breakdown(success: nat, rateLimited: nat, otherFailures: nat)

  /** `show_summary`'s success, 429 and other-failure counts. */
  ghost function BreakdownOf(tally: map<StatusKey, nat>): (b: Breakdown)
    ensures b.success + b.rateLimited + b.otherFailures <= Total(tally)
  {
    BreakdownWithinTotal(tally);
    Breakdown(
      Total(Restrict(tally, IsSuccess)),
      if Code(429) in tally then tally[Code(429)] else 0,
      Total(Restrict(tally, IsOtherFailure)))
  }

  /**
   * The 2xx count, the 429 count and the count of other failures never add up
   * to more than the requests counted: no status is counted under two of them.
   */
  lemma BreakdownWithinTotal(tally: map<StatusKey, nat>)
    ensures Total(Restrict(tally, IsSuccess)) + (if Code(429) in tally then tally[Code(429)] else 0)
      + Total(Restrict(tally, IsOtherFailure)) <= Total(tally)
  {
    var notSuccess := Restrict(tally, IsNotSuccess);
    TotalSplit(tally, IsSuccess, IsNotSuccess);
    TotalSplit(notSuccess, IsOtherFailure, IsNeither);
    SuccessExcludesFailure(tally);
    var rest := Restrict(notSuccess, IsNeither);
    if Code(429) in tally {
      assert Code(429) in rest;
      TotalRemove(rest, Code(429));
    }
  }

  predicate IsNotSuccess(k: StatusKey) {
    !IsSuccess(k)
  }

  predicate IsNeither(k: StatusKey) {
    !IsOtherFailure(k)
  }

  lemma SuccessExcludesFailure(tally: map<StatusKey, nat>)
    ensures Restrict(Restrict(tally, IsNotSuccess), IsOtherFailure) == Restrict(tally, IsOtherFailure)
  {
  }

  /** The keys of `keys` that pass `p`, in order. */
  function Filter(keys: seq<StatusKey>, p: StatusKey -> bool): (r: seq<StatusKey>)
    ensures |r| <= |keys|
  {
    if keys == [] then []
    else Filter(keys[..|keys| - 1], p) + (if p(keys[|keys| - 1]) then [keys[|keys| - 1]] else [])
  }

  /** Counting and then restricting is counting only the keys that pass. */
  lemma {:induction false} RestrictTally(keys: seq<StatusKey>, p: StatusKey -> bool)
    ensures Restrict(TallyOf(keys), p) == TallyOf(Filter(keys, p))
  {
    if keys != [] {
      var init := keys[..|keys| - 1];
      var k := keys[|keys| - 1];
      RestrictTally(init, p);
      if p(k) {
        var f := Filter(init, p) + [k];
        assert f[..|f| - 1] == Filter(init, p);
      } else {
        assert Filter(keys, p) == Filter(init, p) + [];
        assert Filter(init, p) + [] == Filter(init, p);
        assert Restrict(TallyOf(keys), p) == Restrict(TallyOf(init), p);
      }
    }
  }

  /**
   * Over the requests of a run, the success figure is the number of 2xx
   * responses, the rate-limited figure the number of 429 responses and the
   * other-failure figure the number of other 4xx/5xx responses and transport errors.
   */
  lemma BreakdownCounts(keys: seq<StatusKey>)
    ensures BreakdownOf(TallyOf(keys)).success == |Filter(keys, IsSuccess)|
    ensures BreakdownOf(TallyOf(keys)).rateLimited == Occurrences(keys, Code(429))
    ensures BreakdownOf(TallyOf(keys)).otherFailures == |Filter(keys, IsOtherFailure)|
  {
    RestrictTally(keys, IsSuccess);
    TallyOfTotal(Filter(keys, IsSuccess));
    RestrictTally(keys, IsOtherFailure);
    TallyOfTotal(Filter(keys, IsOtherFailure));
    TallyOfCounts(keys, Code(429));
  }
}

=== FILE: text.dfy ===
/**
 * The pieces of Python's string library that the rate-limit tester relies on:
 * `str.strip`, `str.splitlines`, `str.upper`, `int(str)`, `str(int)` and the
 * padding done by format specifications such as `{x:>5}` and `{x:23}`.
 */
module Text {
  import opened Common

  /** Python's `str.isspace`: the characters `str.strip()` removes. */
  predicate IsSpace(c: char) {
    var n := c as int;
    (9 <= n <= 13) || (28 <= n <= 32) || n == 0x85 || n == 0xA0 || n == 0x1680
    || (0x2000 <= n <= 0x200A) || n == 0x2028 || n == 0x2029 || n == 0x202F
    || n == 0x205F || n == 0x3000
  }

  /** The characters at which Python's `str.splitlines` ends a line. */
  predicate IsLineBreak(c: char) {
    var n := c as int;
    (10 <= n <= 13) || (28 <= n <= 30) || n == 0x85 || n == 0x2028 || n == 0x2029
  }

  predicate IsDigit(c: char) {
    '0' <= c <= '9'
  }

  predicate AllSpace(s: string) {
    forall k :: 0 <= k < |s| ==> IsSpace(s[k])
  }

  predicate AllDigits(s: string) {
    forall k :: 0 <= k < |s| ==> IsDigit(s[k])
  }

  predicate NoBreaks(s: string) {
    forall k :: 0 <= k < |s| ==> !IsLineBreak(s[k])
  }

  /** Neither end of `s` is whitespace: `s` is its own `strip()`. */
  predicate IsTrimmed(s: string) {
    s == [] || (!IsSpace(s[0]) && !IsSpace(s[|s| - 1]))
  }

  // ---------------------------------------------------------------- strip

  /** `s.lstrip()`: `s` without its leading whitespace. */
  function TrimStart(s: string): string
    decreases |s|
  {
    if s != [] && IsSpace(s[0]) then TrimStart(s[1..]) else s
  }

  /** `s.rstrip()`: `s` without its trailing whitespace. */
  function TrimEnd(s: string): string
    decreases |s|
  {
    if s != [] && IsSpace(s[|s| - 1]) then TrimEnd(s[..|s| - 1]) else s
  }

  /** `s.strip()`: `s` without its leading and trailing whitespace. */
  function Trim(s: string): (r: string)
    ensures IsTrimmed(r) && |r| <= |s|
  {
    TrimStartSpec(s);
    TrimEndSpec(TrimStart(s));
    TrimEnd(TrimStart(s))
  }

  /** `lstrip()` keeps a suffix that starts with a non-space, and drops only whitespace. */
  lemma {:induction false} TrimStartSpec(s: string)
    ensures var r := TrimStart(s);
      |r| <= |s| && r == s[|s| - |r|..] && (r == [] || !IsSpace(r[0])) && AllSpace(s[..|s| - |r|])
    decreases |s|
  {
    if s != [] && IsSpace(s[0]) {
      TrimStartSpec(s[1..]);
      var r := TrimStart(s);
      assert s[1..][..|s[1..]| - |r|] == s[1..|s| - |r|];
    }
  }

  /** `rstrip()` keeps a prefix that ends with a non-space, and drops only whitespace. */
  lemma {:induction false} TrimEndSpec(s: string)
    ensures var r := TrimEnd(s);
      |r| <= |s| && r == s[..|r|] && (r == [] || !IsSpace(r[|r| - 1])) && AllSpace(s[|r|..])
    decreases |s|
  {
    if s != [] && IsSpace(s[|s| - 1]) {
      var init := s[..|s| - 1];
      TrimEndSpec(init);
      var r := TrimEnd(s);
      assert r == TrimEnd(init);
      assert r == s[..|r|] by {
        assert init[..|r|] == s[..|r|];
      }
      assert s[|r|..] == init[|r|..] + [s[|s| - 1]];
    }
  }

  /**
   * What `strip()` keeps is a slice of its input with no whitespace at either
   * end and only whitespace on either side.
   */
  lemma TrimSlice(s: string) returns (i: nat, j: nat)
    ensures i <= j <= |s| && Trim(s) == s[i..j] && AllSpace(s[..i]) && AllSpace(s[j..])
    ensures IsTrimmed(Trim(s))
  {
    TrimStartSpec(s);
    var t := TrimStart(s);
    TrimEndSpec(t);
    var r := TrimEnd(t);
    i := |s| - |t|;
    j := i + |r|;
    assert r == s[i..j];
    assert t[|r|..] == s[j..];
  }

  /** Whitespace is all that `strip()` removes: every other character survives it. */
  lemma TrimKeepsNonSpace(s: string, c: char)
    requires !IsSpace(c)
    ensures c in Trim(s) <==> c in s
  {
    var i, j := TrimSlice(s);
    if c in s {
      var k :| 0 <= k < |s| && s[k] == c;
      assert i <= k < j;
      assert Trim(s)[k - i] == c;
    }
  }

  /** `strip()` gives the empty string exactly on whitespace-only input. */
  lemma TrimEmptyIff(s: string)
    ensures Trim(s) == [] <==> AllSpace(s)
  {
    var i, j := TrimSlice(s);
    if Trim(s) == [] {
      forall k | 0 <= k < |s| ensures IsSpace(s[k]) {
        if k < i { assert s[..i][k] == s[k]; } else { assert s[j..][k - j] == s[k]; }
      }
    } else {
      assert s[i] == Trim(s)[0];
    }
  }

  /** `strip()` leaves an already-stripped string alone. */
  lemma {:induction false} TrimTrimmed(s: string)
    requires IsTrimmed(s)
    ensures Trim(s) == s
  {
    assert TrimStart(s) == s;
    assert TrimEnd(s) == s;
  }

  lemma {:induction false} TrimStartPadded(pre: string, t: string)
    requires AllSpace(pre) && (t == [] || !IsSpace(t[0]))
    ensures TrimStart(pre + t) == t
    decreases |pre|
  {
    if pre != [] {
      assert (pre + t)[0] == pre[0];
      assert (pre + t)[1..] == pre[1..] + t;
      TrimStartPadded(pre[1..], t);
    }
  }

  lemma {:induction false} TrimEndPadded(t: string, post: string)
    requires AllSpace(post) && (t == [] || !IsSpace(t[|t| - 1]))
    ensures TrimEnd(t + post) == t
    decreases |post|
  {
    if post != [] {
      var p := post[..|post| - 1];
      assert (t + post)[..|t + post| - 1] == t + p;
      TrimEndPadded(t, p);
    } else {
      assert t + post == t;
    }
  }

  /** Stripping discards any whitespace padding around a stripped string. */
  lemma TrimPadded(pre: string, s: string, post: string)
    requires AllSpace(pre) && AllSpace(post) && IsTrimmed(s) && s != []
    ensures Trim(pre + s + post) == s
  {
    assert pre + s + post == pre + (s + post);
    TrimStartPadded(pre, s + post);
    TrimEndPadded(s, post);
  }

  lemma AllSpaceConcat(a: string, b: string)
    ensures AllSpace(a + b) <==> AllSpace(a) && AllSpace(b)
  {
    if AllSpace(a + b) {
      assert forall k :: 0 <= k < |a| ==> a[k] == (a + b)[k];
      assert forall k :: 0 <= k < |b| ==> b[k] == (a + b)[|a| + k];
    }
  }

  /** Whitespace around a string does not change what `strip()` gives. */
  lemma TrimAbsorbs(p: string, x: string, q: string)
    requires AllSpace(p) && AllSpace(q)
    ensures Trim(p + x + q) == Trim(x)
  {
    var i, j := TrimSlice(x);
    var r := Trim(x);
    if r == [] {
      TrimEmptyIff(x);
      AllSpaceConcat(p, x);
      AllSpaceConcat(p + x, q);
      TrimEmptyIff(p + x + q);
    } else {
      TrimAbsorbsSlice(p, x, q, i, j);
    }
  }

  lemma Regroup(p: string, x: string, q: string, i: nat, j: nat)
    requires i <= j <= |x|
    ensures p + x + q == (p + x[..i]) + x[i..j] + (x[j..] + q)
  {
    assert x == x[..i] + x[i..j] + x[j..];
  }

  lemma TrimAbsorbsSlice(p: string, x: string, q: string, i: nat, j: nat)
    requires AllSpace(p) && AllSpace(q)
    requires i <= j <= |x| && Trim(x) == x[i..j] && AllSpace(x[..i]) && AllSpace(x[j..])
    requires x[i..j] != [] && IsTrimmed(x[i..j])
    ensures Trim(p + x + q) == Trim(x)
  {
    var r := x[i..j];
    var pre, post := p + x[..i], x[j..] + q;
    Regroup(p, x, q, i, j);
    assert AllSpace(pre) by { AllSpaceConcat(p, x[..i]); }
    assert AllSpace(post) by { AllSpaceConcat(x[j..], q); }
    TrimPadded(pre, r, post);
  }

  // ----------------------------------------------------------- splitlines

  /** Index of the first line break in `s`, or `|s|` when there is none. */
  function BreakIndex(s: string): (i: nat)
    ensures i <= |s| && NoBreaks(s[..i]) && (i < |s| ==> IsLineBreak(s[i]))
    decreases |s|
  {
    if s == [] then 0
    else if IsLineBreak(s[0]) then 0
    else
      var i := 1 + BreakIndex(s[1..]);
      assert s[..i] == [s[0]] + s[1..][..i - 1];
      i
  }

  /**
   * `s.splitlines()`: the lines of `s` without their terminators; `"\r\n"` ends
   * one line, and a final terminator does not start an empty last line.
   */
  function SplitLines(s: string): (lines: seq<string>)
    ensures forall k :: 0 <= k < |lines| ==> NoBreaks(lines[k])
    decreases |s|
  {
    if s == [] then []
    else
      var i := BreakIndex(s);
      if i == |s| then [s]
      else
        var next := if s[i] == '\r' && i + 1 < |s| && s[i + 1] == '\n' then i + 2 else i + 1;
        [s[..i]] + SplitLines(s[next..])
  }

  /** Whitespace-only text splits into whitespace-only lines. */
  lemma {:induction false} SplitLinesBlank(s: string)
    requires AllSpace(s)
    ensures forall k :: 0 <= k < |SplitLines(s)| ==> AllSpace(SplitLines(s)[k])
    decreases |s|
  {
    if s != [] {
      var i := BreakIndex(s);
      if i < |s| {
        var next := if s[i] == '\r' && i + 1 < |s| && s[i + 1] == '\n' then i + 2 else i + 1;
        var tail := s[next..];
        assert AllSpace(tail) by {
          forall k | 0 <= k < |tail| ensures IsSpace(tail[k]) {
            assert tail[k] == s[next + k];
          }
        }
        SplitLinesBlank(tail);
        var lines, rest := SplitLines(s), SplitLines(tail);
        assert lines == [s[..i]] + rest;
        forall k | 0 <= k < |lines| ensures AllSpace(lines[k]) {
          if k > 0 {
            assert lines[k] == rest[k - 1];
          }
        }
      }
    }
  }

  /** `"\n".join(lines)`. */
  function JoinLines(lines: seq<string>): string
  {
    if lines == [] then []
    else if |lines| == 1 then lines[0]
    else lines[0] + "\n" + JoinLines(lines[1..])
  }

  /**
   * `splitlines` undoes `"\n".join` for lines without terminators of their own,
   * as long as the last line is not empty (an empty last line leaves a trailing
   * newline, which `splitlines` does not report as a line).
   */
  lemma {:induction false} SplitJoin(lines: seq<string>)
    requires forall k :: 0 <= k < |lines| ==> NoBreaks(lines[k])
    requires lines != [] ==> lines[|lines| - 1] != []
    ensures SplitLines(JoinLines(lines)) == lines
  {
    if lines == [] {
    } else if |lines| == 1 {
      var s := lines[0];
      assert BreakIndex(s) == |s|;
    } else {
      var l := lines[0];
      var rest := JoinLines(lines[1..]);
      var s := l + "\n" + rest;
      assert s[|l|] == '\n';
      assert BreakIndex(s) == |l|;
      assert s[..|l|] == l;
      assert s[|l| + 1..] == rest;
      SplitJoin(lines[1..]);
    }
  }

  // ---------------------------------------------------------------- upper

  /** Upper-cases one ASCII letter; every other character is unchanged. */
  function UpperChar(c: char): char {
    if 'a' <= c <= 'z' then (c as int - 32) as char else c
  }

  /** `s.upper()`, restricted to the ASCII letters. */
  function Upper(s: string): (r: string)
    ensures |r| == |s|
    ensures forall k :: 0 <= k < |r| ==> !('a' <= r[k] <= 'z')
    ensures forall k :: 0 <= k < |s| && 'a' <= s[k] <= 'z' ==> r[k] as int == s[k] as int - 32
    ensures forall k :: 0 <= k < |s| && !('a' <= s[k] <= 'z') ==> r[k] == s[k]
  {
    seq(|s|, k requires 0 <= k < |s| => UpperChar(s[k]))
  }

  /** Upper-casing twice is upper-casing once. */
  lemma UpperIdempotent(s: string)
    ensures Upper(Upper(s)) == Upper(s)
  {
    assert forall k :: 0 <= k < |s| ==> Upper(Upper(s))[k] == Upper(s)[k];
  }

  /** Upper-casing neither creates nor removes whitespace at the ends. */
  lemma UpperKeepsTrimmed(s: string)
    requires IsTrimmed(s)
    ensures IsTrimmed(Upper(s))
  {
  }

  // --------------------------------------------------------------- numbers

  function DigitChar(d: nat): (c: char)
    requires d < 10
    ensures IsDigit(c)
  {
    ('0' as int + d) as char
  }

  function DigitValue(c: char): (d: nat)
    requires IsDigit(c)
    ensures d < 10
  {
    c as int - '0' as int
  }

  /** `str(n)` for a natural number: its shortest decimal rendering. */
  function NatToString(n: nat): (r: string)
    ensures r != [] && AllDigits(r)
    decreases n
  {
    if n < 10 then [DigitChar(n)] else NatToString(n / 10) + [DigitChar(n % 10)]
  }

  /** `str(i)` for any integer. */
  function IntToString(i: int): (r: string)
    ensures r != [] && IsTrimmed(r)
  {
    if i < 0 then "-" + NatToString(-i) else NatToString(i)
  }

  /** The number a non-empty run of decimal digits denotes. */
  function DigitsValue(s: string): nat
    requires AllDigits(s)
  {
    if s == [] then 0 else 10 * DigitsValue(s[..|s| - 1]) + DigitValue(s[|s| - 1])
  }

  /**
   * `int(s)` for a string that is already stripped: an optional sign followed by
   * one or more decimal digits; anything else is a `ValueError` (here `None`).
   */
  function ParseInt(s: string): (r: Option<int>)
    ensures r.Some? ==> s != [] && IsTrimmed(s)
    ensures r.Some? && r.value < 0 ==> s[0] == '-'
    ensures s != [] && AllDigits(s) ==> r.Some? && r.value >= 0
  {
    if s != [] && (s[0] == '-' || s[0] == '+') then
      if |s| > 1 && AllDigits(s[1..]) then
        var v: int := DigitsValue(s[1..]);
        Some(if s[0] == '-' then -v else v)
      else None
    else if s != [] && AllDigits(s) then Some(DigitsValue(s))
    else None
  }

  lemma {:induction false} NatToStringValue(n: nat)
    ensures DigitsValue(NatToString(n)) == n
    decreases n
  {
    var r := NatToString(n);
    if n >= 10 {
      NatToStringValue(n / 10);
      assert r[..|r| - 1] == NatToString(n / 10);
    }
  }

  /** `int(str(i)) == i`: the decimal rendering of an integer reads back as it. */
  lemma ParseIntToString(i: int)
    ensures ParseInt(IntToString(i)) == Some(i)
  {
    if i < 0 {
      NatToStringValue(-i);
      assert IntToString(i)[1..] == NatToString(-i);
    } else {
      NatToStringValue(i);
    }
  }

  /** A natural number below `10^k` has at most `k` decimal digits. */
  lemma {:induction false} NatToStringLength(n: nat, k: nat)
    requires k >= 1 && n < Pow10(k)
    ensures |NatToString(n)| <= k
    decreases k
  {
    if n >= 10 {
      assert k > 1;
      NatToStringLength(n / 10, k - 1);
    }
  }

  function Pow10(k: nat): (p: nat)
    ensures p >= 1
  {
    if k == 0 then 1 else 10 * Pow10(k - 1)
  }

  // --------------------------------------------------------------- padding

  function Spaces(n: nat): (r: string)
    ensures |r| == n && AllSpace(r)
  {
    seq(n, _ => ' ')
  }

  /** Format spec `{s:>w}`: right-aligned in a field of at least `w` characters. */
  function AlignRight(s: string, w: nat): (r: string)
    ensures |r| == if |s| < w then w else |s|
    ensures r[|r| - |s|..] == s && AllSpace(r[..|r| - |s|])
  {
    if |s| < w then Spaces(w - |s|) + s else s
  }

  /** Format spec `{s:w}` on a string: left-aligned in a field of at least `w` characters. */
  function AlignLeft(s: string, w: nat): (r: string)
    ensures |r| == if |s| < w then w else |s|
    ensures r[..|s|] == s && AllSpace(r[|s|..])
  {
    if |s| < w then s + Spaces(w - |s|) else s
  }

  /** Stripping a right-aligned field gives back the stripped text that was aligned. */
  lemma TrimAlignRight(s: string, w: nat)
    requires IsTrimmed(s) && s != []
    ensures Trim(AlignRight(s, w)) == s
  {
    var pre := if |s| < w then Spaces(w - |s|) else "";
    assert AlignRight(s, w) == pre + s + "";
    TrimPadded(pre, s, "");
  }

  predicate StartsWith(s: string, prefix: string) {
    |prefix| <= |s| && s[..|prefix|] == prefix
  }
}
